=== FILE: README.md ===
# bonzai command tree, in Dafny

A model of the core of bonzai, a Go framework for composing command-line programs out of a tree of `Cmd` nodes. The model covers how a tree turns an argument list into a command to run:

- the per-node alias table and `Resolve`;
- the greedy `Seek` walk and the `Caller` links it leaves behind;
- `Path` and `PathString`;
- the small accessors of `Cmd` (`Names`, `CmdNames`, `Param`, `IsHidden`, `Add`, `Title`, `Legal`, `OtherTitles`);
- `Cmd.Run`, as a decision: shorthand expansion, then either bash completion or dispatch to a target with the default-command rule and the `MinArgs` and `ReqConf` checks;
- `InferredUsage`, `ArgsFrom` and multicall `Run` from z/bonzai.go;
- `Standard` completion from comp/standard.go.

Everything is a pure function of immutable values.

- A `Cmd` holds its children as a sequence.
- A node is identified by its address, which is the child indices leading to it from the root.
- The `Caller` pointers that Go writes onto nodes are a map from address to address. A node that is not a key has a nil `Caller`.
- The function-valued fields (`Call`, `Completer`, `UsageFunc`) are identifiers. Completers, custom usage functions and `UsageGroup` are supplied as functions in a `Hooks` value.
- The process environment is an `Env` value: `os.Args`, the `Z.Aliases` shorthand table with the order Go's map iteration visits its keys, `COMP_LINE`, whether `Z.Conf` is set, and the caller links left by earlier runs.
- `Run` returns an `Outcome`:
  - a completion list;
  - an alias expansion;
  - an error of a given kind;
  - or the node to invoke, with its residual arguments and the caller links in force.

Modules, one per file:

- `Wrappers` (wrappers.dfy): `Option`.
- `Text` (text.dfy): whitespace and the `strings.Fields` split, joining, and the prefix filter and set difference used by completion.
- `Commands` (cmd.dfy): the `Cmd` datatype and its accessors.
- `Lookup` (lookup.dfy): the alias cache, `Resolve`, `Seek`, caller links and `Path`.
- `Usage` (usage.dfy): `InferredUsage` and the error messages.
- `Line` (line.dfy): `ArgsFrom`.
- `Completion` (standard.dfy): `Standard`.
- `Dispatch` (run.dfy): `Cmd.Run`.
- `Multicall` (multicall.dfy): multicall `Run`.

Where the code and its comments disagree, the model follows the code:

- `Standard` removes hidden names even when the argument names one exactly. Item 3 of its doc comment says an exact name is returned even if hidden. See `Completion.StandardHidesExactName`.
- Item 2 of `Standard`'s doc comment says it returns all commands and params when there are no arguments. The code returns only the command's own name. See `Completion.Standard`.
- `ReqConf` is read from the root only, not from the command that ends up being run. See `Dispatch.ReqConfOnRootOnly`.
- `Unimplemented` names the root, not the command that was sought. See `Dispatch.EffectiveTarget`.
- The doc comment of `Legal` says the result is empty when `Version` is empty. The switch tests `Copyright`: the result is empty exactly when there is no copyright. See `Commands.Legal`.
- The doc comment of `InferredUsage` says it leaves out hidden commands. Its loop over `Commands` lists every child, hidden or not. See `Usage.ChildGroups`.
- During `Run` only the root's alias table is built. Below the root, commands resolve by name only. `Seek` passes an empty table to the children.

## Model

| member | source | states |
|---|---|---|
| Commands.Names | z/cmd.go:63-70 | the aliases in declaration order, then the name, which is always last |
| Commands.CmdNames | z/cmd.go:309-319 | a string is listed iff it is non-empty and some child has it as its name |
| Commands.Param | z/cmd.go:344-355 | returns the argument when it is one of the params, and "" otherwise |
| Commands.IsHidden | z/cmd.go:357-369 | true exactly when the name is listed in Hidden |
| Commands.Add | z/cmd.go:281-291 | the new child is a fresh command with the given name and aliases and every other field at its zero value; it is appended after the existing children, and nothing else of the parent changes |
| Commands.Title | z/cmd.go:91-104 | "{ERROR: Name is empty}" without a name; otherwise the name, followed by " - " and the summary when there is one |
| Commands.Legal | z/cmd.go:106-127 | empty iff there is no copyright; otherwise, whichever arm of the switch applies, the name, then " (version) " when there is a version and a single space when not, then the copyright, then "\nLicense " and the license when there is one |
| Commands.LegalLayout | z/cmd.go:106-127 | the layout of Legal's text is empty iff there is no copyright, starts with the name, and ends with the license line or, without a license, with the copyright |
| Commands.LegalFifthArmUnreachable | z/cmd.go:122-123 | no command reaches the fifth arm of the switch in Legal |
| Commands.Sections | z/cmd.go:147-155 | the section table has exactly the titles of Other, each mapped to the body of the last section with that title |
| Commands.OtherTitles | z/cmd.go:129-130 | before the section table is built (any node other than the one Run was called on), no titles; once it is built, exactly the titles of the sections in Other |
| Lookup.AliasCache | z/cmd.go:132-145 | the alias table maps exactly the declared aliases, each to the last child declaring it |
| Lookup.Resolve | z/cmd.go:293-307 | nothing without children; the first child with the exact name wins; the alias table is consulted only when no child has that name; otherwise nothing |
| Lookup.ResolveAliasLastWins | z/cmd.go:137-143 | with the table Run builds, an alias two children share selects the later one |
| Lookup.ResolveNameBeatsAlias | z/cmd.go:298-305 | a child's exact name beats a sibling's alias of the same spelling |
| Lookup.AddThenResolve | z/cmd.go:284-307 | after Add, the new child's name resolves to it, unless an earlier sibling already has that name |
| Lookup.Seek | z/cmd.go:371-386 | the target is a node of the tree; the residual is the arguments after the consumed ones; no arguments or no children return the start node and the arguments unchanged |
| Lookup.SeekIsGreedy | z/cmd.go:375-385 | each consumed argument resolves from the node reached before it (the root's alias table at the top, names only below); the walk stops only when nothing is left or the next argument resolves to no child |
| Lookup.SeekUnique | z/cmd.go:375-385 | any walk that consumes by resolution and cannot go further is the one Seek takes |
| Lookup.SeekFullMatch | z/cmd.go:377-385 | when every argument resolves step by step, Seek ends at the last node with nothing left over |
| Lookup.SeekNoMatch | z/cmd.go:377-381 | when the first argument resolves to no child, Seek returns the start node and every argument |
| Lookup.SeekLinks | z/cmd.go:382 | after Seek, each node on the way points to its parent, and every other Caller is unchanged |
| Lookup.CallerChainComplete | z/cmd.go:395-397 | a walk that follows the Caller links from the node to one with nil Caller within the fuel is exactly the walk returned, so the Caller walk ends whenever Go's loop does |
| Lookup.CallerChain | z/cmd.go:395-397 | the walk up the Caller links starts at the node itself; each step goes from a node to its Caller; the walk stops at the first node with nil Caller, and ends at once for a node with nil Caller |
| Lookup.Path | z/cmd.go:392-400 | a node with nil Caller has an empty path; the path ends iff the Caller walk ends; it holds the names along that walk, all but the top node's, in top-down order |
| Lookup.PathString | z/cmd.go:405-407 | "" for a node with nil Caller; defined exactly when Path is |
| Lookup.ChainAlongPrefixes | z/cmd.go:395-397 | when each prefix of an address points to its parent and the root has no Caller, the walk climbs the address to the root |
| Lookup.PathAfterSeek | z/cmd.go:371-407 | after Seek steps along an address from a root with no Caller, Path is the names of the nodes stepped to, and PathString joins them with "." |
| Usage.InferredUsage | z/bonzai.go:108-145 | the two error texts and their precedence; params and command names joined as "(params\|names)" when both are non-empty, otherwise whichever is non-empty; no names without children |
| Usage.InferredUsageErrorIff | z/bonzai.go:102-121 | provided UsageGroup never produces error text, the result is error text iff the command has no Call and either no children or some params |
| Usage.UsageNames | z/cmd.go:72-74 | one group of which exactly one is chosen: the aliases in order, then the name |
| Usage.UsageError | z/cmd.go:245-257 | "usage: ", the name and a space, then the text of the command's own usage function, or else of the function assigned to Z.UsageFunc, which is InferredUsage unless reassigned |
| Usage.ReqConfMsg | z/cmd.go:259-268 | "cmd ", the name in double quotes, then " requires a configurer (Z.Conf must be assigned)" |
| Usage.UnimplementedMsg | z/cmd.go:270-273 | the name in double quotes, then " has not yet been implemented" |
| Text.Fields | z/bonzai.go:240 | every field is non-empty and whitespace-free, and the string is exactly its fields with runs of whitespace between them and, possibly, before and after them |
| Text.FieldsOfSplit | z/bonzai.go:240 | conversely, a string laid out as words with whitespace between them (non-empty between two words, possibly empty at either end) has exactly those words as its fields |
| Line.ArgsFrom | z/bonzai.go:231-245 | "" gives no words; every word is non-empty and whitespace-free except one trailing "", which is present iff the line's last character is a space; the other words are exactly the line's words, with only whitespace around and between them |
| Line.ArgsFromSplit | z/bonzai.go:235-245 | any line laid out as words and whitespace reads back as exactly those words, plus "" when it ends in a space |
| Line.ArgsFromRoundTrip | z/bonzai.go:235-245 | words joined by single spaces split back into the same words, and a trailing space adds exactly one "" |
| Completion.Visible | comp/standard.go:37-41 | a string is visible iff it is a child name or a param and is not hidden |
| Completion.Standard | comp/standard.go:25-48 | a completer's output is returned unchanged; no arguments give the command's name; otherwise a string is offered iff it is visible and starts with the first argument, with no more entries than children plus params |
| Completion.StandardReadsFirstArgOnly | comp/standard.go:47 | arguments after the first do not change the result |
| Completion.StandardAfterBlank | comp/standard.go:37-47 | after a trailing space (first argument "") every visible name and param is offered, in order |
| Completion.StandardHidesExactName | comp/standard.go:41 | a hidden name is not offered even when the argument is exactly that name |
| Dispatch.Shorthand | z/cmd.go:173-182 | with at least two arguments and a shorthand key second, that key is replaced by its expansion and the remaining arguments follow; otherwise the arguments are unchanged |
| Dispatch.ShorthandTransparent | z/cmd.go:174-182 | unless the expansion itself starts with a key, running with a shorthand is the same as running with its expansion |
| Dispatch.AliasSuggestions | z/cmd.go:189-191 | on a two-word line, exactly the shorthand keys starting with the second word; otherwise none |
| Dispatch.CompletionWalk | z/cmd.go:192 | the completion target is a node of the tree |
| Dispatch.CompletionReply | z/cmd.go:184-206 | completion never invokes an action; it fails (with a panic) iff the line has no words; an expansion happens only on a two-word line whose candidates are one shorthand key, and it is that key's value |
| Dispatch.CompletionDelegates | z/cmd.go:193-205 | a target with its own completer answers alone, and the shorthand suggestions are dropped |
| Dispatch.CandidatesMembers | z/cmd.go:189-198 | before a completer is consulted, the candidates are exactly the shorthand keys that extend the one word after the command name, together with the standard suggestions for the node Seek reaches |
| Dispatch.ReplyWithoutCompleter | z/cmd.go:189-202 | without a completer, the reply expands the one alias that is the sole candidate on a two-word line, and otherwise lists the candidates |
| Dispatch.CompletionCandidates | z/cmd.go:189-202 | without a completer, each candidate is a matching shorthand key or a standard suggestion; every matching key and every standard suggestion is offered; the lone-alias expansion happens exactly when the single candidate is a key on a two-word line, and is that key's value |
| Dispatch.EffectiveTarget | z/cmd.go:214-226 | a target with Call is kept; without Call the first child is used and must have Call; with neither Call nor children the error names the root |
| Dispatch.Decide | z/cmd.go:208-243 | the result is an invocation or one of four errors; the invoked node is the effective target of the node Seek reached, has Call and enough residual arguments, and is invoked under a root that requires a configuration only when one is present; the residual is Seek's; the links are the ones Seek left with Caller defaulted |
| Dispatch.DecideAsWrittenLinks | z/cmd.go:236-239 | the code as written leaves the same links as the corrected default, except that a root invoked without a Caller becomes its own |
| Dispatch.DispatchChecks | z/cmd.go:228-243 | once a target is settled: a usage error iff too few arguments, with the usage message; then a configuration error iff the root needs one and none is set, with the message naming the target; otherwise the target is invoked with Seek's residual |
| Dispatch.DispatchRefusal | z/cmd.go:214-226 | a missing Call or default Call is reported before any argument check |
| Dispatch.ReqConfOnRootOnly | z/cmd.go:232-234 | when the root does not require configuration, no configuration error is raised, whatever the target requires |
| Dispatch.DefaultCallerAsWritten | z/cmd.go:236-239 | the target always ends up with a Caller: a target without one gets the root, even when it is the root itself; existing Caller links are kept and no other link is added |
| Dispatch.RootSelfCallerNeverEnds | z/cmd.go:392-400 | once the root is its own Caller, walking up from it never ends |
| Dispatch.DefaultCaller | z/cmd.go:236-239 | a target below the root gets a Caller; the only link added is from that target to the root; existing links are kept |
| Dispatch.SeekedLinksEnd | z/cmd.go:236-239 | after Seek on a fresh tree the default changes nothing |
| Dispatch.InvokedPath | z/cmd.go:236-240 | with the corrected default, a node Seek reached from a root without Caller has a Path that ends and is the names of the nodes stepped to |
| Dispatch.DispatchPath | z/cmd.go:236-240 | on a fresh tree the invoked action sees a Path that ends and is the names of the nodes stepped to |
| Dispatch.RunRootAsWrittenLoops | z/cmd.go:209-240 | as written, a root with Call, with MinArgs at most 0 and without ReqConf, run on arguments naming no child and with no Caller, is invoked as its own caller, so a Path taken from its action never ends |
| Dispatch.Run | z/cmd.go:167-244 | a completion line is answered by the completion branch and never leads to an invocation; without one, an empty argument list panics, and otherwise the arguments after the program name, with shorthand expanded, are dispatched |
| Dispatch.ExitCode | z/bonzai.go:267-279 | status 0 after completion or an action that returns nil; 1 for an error, an error from the action, or a panic TrapPanic recovers; 2 for a panic when AllowPanic keeps TrapPanic from recovering it |
| Multicall.Strings | z/bonzai.go:167-173 | defined iff every element is a string, and then it lists them in order |
| Multicall.LaunchAsWritten | z/bonzai.go:155-181 | an entry holding only the command runs it with just its name, whatever the arguments were |
| Multicall.MulticallLaunch | z/bonzai.go:155-181 | corrected behaviour: the four error cases with their messages, and the panic when the process has no arguments at all; on success the first entry is the root, and the arguments are its name, then the entry's strings, then the invocation's arguments after the program name |
| Multicall.LaunchAgreesWithStrings | z/bonzai.go:164-175 | when the entry has strings to prepend, or is missing, the code as written and the corrected version agree |
| Multicall.LaunchAsWrittenDropsArgs | z/bonzai.go:164-176 | for an entry holding only the command and the invocation `exe -l`, as written the command gets only its name; corrected, it gets its name and "-l" |
| Multicall.MulticallRun | z/bonzai.go:155-181 | an unmapped executable name is reported; an entry that cannot be launched is reported with its own error; otherwise the selected root is run with the rebuilt arguments |
| Multicall.MulticallExitCode | z/bonzai.go:155-181 | status 1 for an entry's error; 2 for a panic while rebuilding the arguments, which no TrapPanic covers; otherwise the status of the run |
| Multicall.MulticallPanicUntrapped | z/bonzai.go:164-166 | for an entry with strings to prepend and an empty os.Args, the code as written and the corrected launch both panic; that panic ends with status 2 even without AllowPanic, where the same panic inside Cmd.Run ends with 1 |

## Left out

- Printing, `log` and `os.Exit`. Outcomes are values. A runtime panic is an `Error(Panic, ...)`, and `Dispatch.ExitCode` gives the status the process would end with.
- Dispatch.ExitCode: `TrapPanic` is a variable that could be reassigned; the model keeps the default function, with `AllowPanic` as a parameter.
- Dispatch.Decide: `Caller` is defaulted as evidently intended (`Dispatch.DefaultCaller`), not as written; `Dispatch.DecideAsWrittenLinks` states the one difference, a root invoked without a `Caller` becoming its own.
- Dispatch.Run: dispatches through `Dispatch.Decide`, so it inherits the corrected `Caller` default.
- Multicall.MulticallRun: built on the corrected `Multicall.MulticallLaunch`; as written (`Multicall.LaunchAsWritten`), an entry holding only the command drops the invocation's arguments.
- Multicall.MulticallExitCode: computed from the corrected `Multicall.MulticallLaunch`. For an entry holding only the command, the code as written never reaches `os.Args[1:]`: it runs the command with just its name, so it neither panics on an empty `os.Args` nor passes the invocation's arguments, and its status is that of that run.
- Commands.Add: the model returns the child as a value. In Go the result is a pointer into the parent's `Commands`, so setting fields through it changes the child inside the parent; here the returned child is a copy, and such configuration is done by building the child before adding it.
- Go strings are byte sequences; the model's strings are sequences of characters. For valid UTF-8 the two agree on everything the core does with them (`strings.Fields` decodes runes, and the last byte of a line is a space only when its last character is). Invalid UTF-8 is not modelled.
- `DoNotExit`, `ExitOn` and `ExitOff`. `ExitError` is terminal, so the Go fall-through that is possible in tests is not modelled.
- `init`: reading `os.Executable` and deriving `ExePath` and `ExeName`. `ExeName` is a parameter of multicall `Run`.
- `ArgsOrIn`: it reads the terminal.
- Running the action. `Invoke` names the node, its arguments and the caller links. How the action ended (nil, an error, a panic) is a parameter of `ExitCode`.
- `Conf.Query`, `Q` and `MissingConfig`: they need a configurer whose source is not part of this model. `Z.Conf` is reduced to a flag saying whether it is set.
- The `{ERROR: not a bonzai.Command}` branch of `InferredUsage`: the model only ever passes a `Cmd`.
- `UsageGroup`, the layout of `UsageNames`/`UsageParams`/`UsageCmdNames`, and `UsageCmdTitles` padding: text layout from code outside this model. `UsageGroup` is a function parameter.
- The custom `UsageFunc` and `Completer`: functions supplied with the model's hooks.
- `EscAll` applied to a completed expansion: its source is not shown, so the expansion is returned unescaped.
- `maps.KeysWithPrefix`, `set.Minus` and `filt.HasPrefix` come from external libraries. The model stands in order-preserving filters and states their results as membership properties.
- `qstack`: `Path` builds its list directly.
- Usage.UsageError: the leading word is the default value of `Z.UsageText`. Reassigning that variable is not modelled. (Reassigning `Z.UsageFunc` is: it is a hook.)
- `%q` in `Unimplemented` and `ReqConfError`: the name is wrapped in double quotes without Go's escaping.
- Go's nil-versus-empty distinction is not modelled. A nil slice is the same as an empty one, and a nil shorthand value is the same as an empty expansion. Three places differ when a slice is empty but not nil: the `Commands` tests in `InferredUsage`, the `Params` test in `InferredUsage`, and the `alias != nil` test in `Run`.
- The order in which Go iterates a map.
  - For `Z.Aliases` it is a parameter that lists every key once.
  - `OtherTitles` is a set.
  - The Go map `_sections` is a nil map until `cacheSections` runs; `Commands.OtherTitles` takes whether it has run as a parameter.
- Shared subtrees, where the same `*Cmd` is reachable by two paths: the model gives each address its own `Caller`.
- The fields `Usage`, `Description`, `Site`, `Source` and `Issues`, and the getter methods: nothing in the core reads them.
- The `cmd == nil` check after `Seek` and the second `len(args) == 0` test in `Standard`: neither can be reached.
- old/is/is.go: type declarations only, with no behaviour.

## Findings

| source | as written | input that shows it | evidently intended | confidence | as-written member | corrected member |
|---|---|---|---|---|---|---|
| z/cmd.go:236-239 | a target with nil `Caller` gets the root as its `Caller`, even when the target is the root itself | a root with `Call` run with no arguments: the root becomes its own `Caller`, and `Path` (z/cmd.go:392-400) called from its action loops forever | only a target below the root gets the root as its `Caller`; the root keeps none, so its `Path` is empty | not executed; high that the loop happens, medium that it was unintended | Dispatch.DefaultCallerAsWritten | Dispatch.DefaultCaller |
| z/bonzai.go:164-176 | `os.Args[1:]` is appended only inside `if len(v) > 1` | `Commands["ls"] = []any{lsCmd}`, run as `ls -l`: the root gets `["ls"]` | `["ls", "-l"]`: the invocation's arguments follow whether or not there are strings to prepend | not executed; medium | Multicall.LaunchAsWritten | Multicall.MulticallLaunch |

`Dispatch.RunRootAsWrittenLoops` and `Dispatch.RootSelfCallerNeverEnds` show the first discrepancy. `Dispatch.InvokedPath` and `Dispatch.DispatchPath` prove that the corrected version, which `Dispatch.Decide` uses, has a `Path` that ends. `Multicall.LaunchAsWrittenDropsArgs` shows the second. `Multicall.MulticallRun` is built on the corrected `Multicall.MulticallLaunch`, whose contract keeps the invocation's arguments as the suffix.

=== FILE: cmd.dfy ===
/**
  The command node of z/cmd.go and its small pure helpers. A `Cmd` is an
  immutable tree: the Go pointers to children become a sequence of child
  values, and the function-valued fields (the action `Call`, the `Completer`
  and the per-command `UsageFunc`) become identifiers that the caller of the
  model interprets. The mutable `Caller` field and the two caches live
  outside the node (see the Lookup module).
*/
module Commands {
  import opened Wrappers
  import opened Text

  /** Identifies a command's action (`Call`); `None` stands for a nil `Call`. */
  type ActionId = nat
  /** Identifies a custom `Completer`. */
  type CompleterId = nat
  /** Identifies a custom `UsageFunc`. */
  type UsageFuncId = nat

  datatype Section = Section(title: string, body: string)

  datatype Cmd = Cmd(
    name: string,
    aliases: seq<string>,
    summary: string,
    version: string,
    copyright: string,
    license: string,
    commands: seq<Cmd>,
    params: seq<string>,
    hidden: seq<string>,
    other: seq<Section>,
    completer: Option<CompleterId>,
    usageFunc: Option<UsageFuncId>,
    call: Option<ActionId>,
    minArgs: int,
    minParm: int,
    maxParm: int,
    reqConf: bool
  )

  /** A command with only a name and aliases set, every other field at its zero value. */
  function NewCmd(name: string, aliases: seq<string>): Cmd {
    Cmd(name, aliases, "", "", "", "", [], [], [], [], None, None, None, 0, 0, 0, false)
  }

  /** `Names`: the aliases in declaration order followed by the name, which is always last. */
  function Names(x: Cmd): (r: seq<string>)
    ensures |r| == |x.aliases| + 1
    ensures r[|r| - 1] == x.name
    ensures forall i :: 0 <= i < |x.aliases| ==> r[i] == x.aliases[i]
  {
    x.aliases + [x.name]
  }

  /** Some child in `cmds` is called `s`. */
  predicate NamedIn(cmds: seq<Cmd>, s: string) {
    exists i :: 0 <= i < |cmds| && cmds[i].name == s
  }

  lemma NamedInCons(cmds: seq<Cmd>, s: string)
    requires |cmds| > 0
    ensures NamedIn(cmds, s) <==> cmds[0].name == s || NamedIn(cmds[1..], s)
  {
  }

  /** The non-empty names of `cmds`, in declaration order. */
  function NamesOf(cmds: seq<Cmd>): (r: seq<string>)
    ensures |r| <= |cmds|
    ensures forall s :: s in r <==> s != "" && NamedIn(cmds, s)
  {
    if |cmds| == 0 then []
    else
      var rest := NamesOf(cmds[1..]);
      assert forall s :: NamedIn(cmds, s) <==> cmds[0].name == s || NamedIn(cmds[1..], s) by {
        forall s { NamedInCons(cmds, s); }
      }
      if cmds[0].name == "" then rest else [cmds[0].name] + rest
  }

  /** `CmdNames`: the names of the children, skipping children whose name is empty. */
  function CmdNames(x: Cmd): (r: seq<string>)
    ensures |r| <= |x.commands|
    ensures forall s :: s in r <==> s != "" && NamedIn(x.commands, s)
  {
    NamesOf(x.commands)
  }

  /** `Param`: the matching parameter if `p` is one of the node's params, else the empty string. */
  function Param(x: Cmd, p: string): (r: string)
    ensures p in x.params ==> r == p
    ensures p !in x.params ==> r == ""
  {
    if Member(x.params, p) then p else ""
  }

  /** `IsHidden`: whether `name` is listed in `Hidden`. */
  function IsHidden(x: Cmd, name: string): (r: bool)
    ensures r <==> name in x.hidden
  {
    Member(x.hidden, name)
  }

  /**
    `Add`: appends a fresh child with the given name and aliases and returns
    the updated parent together with the new child.
  */
  function Add(x: Cmd, name: string, aliases: seq<string>): (r: (Cmd, Cmd))
    ensures r.1 == NewCmd(name, aliases)
    ensures r.1.name == name && r.1.aliases == aliases
    ensures r.1.call.None? && |r.1.commands| == 0 && |r.1.params| == 0
    ensures |r.0.commands| == |x.commands| + 1
    ensures r.0.commands[|x.commands|] == r.1
    ensures forall i :: 0 <= i < |x.commands| ==> r.0.commands[i] == x.commands[i]
    ensures r.0 == x.(commands := r.0.commands)
  {
    var c := NewCmd(name, aliases);
    (x.(commands := x.commands + [c]), c)
  }

  /** `Title`: the name, followed by " - " and the summary when there is one. */
  function Title(x: Cmd): (r: string)
    ensures x.name == "" ==> r == "{ERROR: Name is empty}"
    ensures x.name != "" ==> x.name <= r
    ensures x.name != "" && x.summary == "" ==> r == x.name
    ensures x.name != "" && x.summary != "" ==> r[|x.name|..] == " - " + x.summary
  {
    if x.name == "" then "{ERROR: Name is empty}"
    else if |x.summary| > 0 then x.name + " - " + x.summary
    else x.name
  }

  /** The guard of the fifth arm of `Legal`'s switch, reached only when the four before it fail. */
  predicate LegalFifthArm(x: Cmd) {
    && |x.copyright| > 0
    && !(|x.copyright| > 0 && |x.license| == 0 && |x.version| == 0)
    && !(|x.copyright| > 0 && |x.license| > 0 && |x.version| > 0)
    && !(|x.copyright| > 0 && |x.license| > 0)
    && !(|x.copyright| > 0 && |x.version| > 0)
  }

  /** Whatever the fields hold, `Legal` never reaches its fifth arm. */
  lemma LegalFifthArmUnreachable(x: Cmd)
    ensures !LegalFifthArm(x)
  {
  }

  /** What the layout of `Legal`'s text implies about its start and end. */
  lemma LegalLayout(x: Cmd, r: string)
    requires x.copyright == "" ==> r == ""
    requires x.copyright != "" ==>
      r == x.name + (if x.version != "" then " (" + x.version + ") " else " ") + x.copyright
           + (if x.license != "" then "\nLicense " + x.license else "")
    ensures r == "" <==> x.copyright == ""
    ensures x.copyright != "" ==> x.name <= r
    ensures x.copyright != "" && x.license != "" ==> EndsWith(r, "\nLicense " + x.license)
    ensures x.copyright != "" && x.license == "" ==> EndsWith(r, x.copyright)
  {
    if x.copyright != "" {
      var head := x.name + (if x.version != "" then " (" + x.version + ") " else " ") + x.copyright;
      var tail := if x.license != "" then "\nLicense " + x.license else "";
      assert r == head + tail;
      assert r[..|x.name|] == x.name;
      if x.license == "" {
        assert r == head;
      }
    }
  }

  /**
    `Legal`: one line of name, version, copyright and license; empty without
    a copyright. Whatever arm of the switch applies, the text is the name,
    the version in parentheses when there is one, the copyright, and the
    license on a second line when there is one.
  */
  function Legal(x: Cmd): (r: string)
    ensures r == "" <==> x.copyright == ""
    ensures x.copyright != "" ==> x.name <= r
    ensures x.copyright != "" && x.license != "" ==> EndsWith(r, "\nLicense " + x.license)
    ensures x.copyright != "" && x.license == "" ==> EndsWith(r, x.copyright)
    ensures x.copyright != "" ==>
      r == x.name + (if x.version != "" then " (" + x.version + ") " else " ") + x.copyright
           + (if x.license != "" then "\nLicense " + x.license else "")
  {
    var r :=
      if |x.copyright| > 0 && |x.license| == 0 && |x.version| == 0 then
        x.name + " " + x.copyright
      else if |x.copyright| > 0 && |x.license| > 0 && |x.version| > 0 then
        x.name + " (" + x.version + ") " + x.copyright + "\nLicense " + x.license
      else if |x.copyright| > 0 && |x.license| > 0 then
        x.name + " " + x.copyright + "\nLicense " + x.license
      else if |x.copyright| > 0 && |x.version| > 0 then
        x.name + " (" + x.version + ") " + x.copyright
      else if |x.copyright| > 0 then
        x.name + "\n" + x.copyright
      else
        "";
    LegalLayout(x, r);
    r
  }


  /** Section `i` is the last one titled `t`. */
  ghost predicate LastTitled(other: seq<Section>, t: string, i: int) {
    0 <= i < |other| && other[i].title == t && forall j :: i < j < |other| ==> other[j].title != t
  }

  /** The properties `Sections` promises of `m` for the sections `other`. */
  ghost predicate SectionsOf(other: seq<Section>, m: map<string, string>) {
    && (forall t :: t in m <==> exists i :: 0 <= i < |other| && other[i].title == t)
    && (forall t :: t in m ==> exists i :: LastTitled(other, t, i) && other[i].body == m[t])
  }

  /** Adding the last section to the table of the earlier ones keeps `SectionsOf`. */
  lemma SectionsStep(other: seq<Section>, m: map<string, string>)
    requires |other| > 0
    requires SectionsOf(other[..|other| - 1], m)
    ensures SectionsOf(other, m[other[|other| - 1].title := other[|other| - 1].body])
  {
  }

  /**
    `cacheSections`: title to body; when two sections share a title the
    later one wins.
  */
  function Sections(other: seq<Section>): (m: map<string, string>)
    ensures forall t :: t in m <==> exists i :: 0 <= i < |other| && other[i].title == t
    ensures forall t :: t in m ==> exists i :: LastTitled(other, t, i) && other[i].body == m[t]
  {
    if |other| == 0 then map[]
    else
      var n := |other| - 1;
      var m := Sections(other[..n]);
      SectionsStep(other, m);
      m[other[n].title := other[n].body]
  }

  /**
    `OtherTitles`: the titles in the node's section table, as a set (Go map
    order is unspecified). The table exists only once `cacheSections` has
    run on the node, which `Run` does for the node it is called on and for
    no other; `built` says whether that has happened. Before it the table
    is a nil map and there are no titles.
  */
  function OtherTitles(x: Cmd, built: bool): (r: set<string>)
    ensures !built ==> r == {}
    ensures built ==> forall t :: t in r <==> exists i :: 0 <= i < |x.other| && x.other[i].title == t
  {
    if built then Sections(x.other).Keys else {}
  }
}

=== FILE: line.dfy ===
/** `ArgsFrom` (z/bonzai.go): the completion line split into words. */
module Line {
  import opened Text

  /** The line ends with a plain space, which marks a finished word. */
  predicate EndsInBlank(line: string) {
    |line| > 0 && line[|line| - 1] == ' '
  }

  /**
    `ArgsFrom`: the whitespace-separated fields of the line, and one extra
    empty word when its last character is a space (a trailing tab or newline
    adds none).
  */
  function ArgsFrom(line: string): (r: seq<string>)
    ensures line == "" ==> r == []
    ensures forall i :: 0 <= i < |r| ==> IsWord(r[i]) || (i == |r| - 1 && r[i] == "")
    ensures (|r| > 0 && r[|r| - 1] == "") <==> EndsInBlank(line)
    ensures !EndsInBlank(line) ==> SplitsInto(line, r)
    ensures EndsInBlank(line) ==> SplitsInto(line, r[..|r| - 1])
  {
    if line == "" then
      assert Separators([""], []) && Interleave([""], []) == line;
      []
    else
      var fields := Fields(line);
      if line[|line| - 1] == ' ' then fields + [""] else fields
  }

  /**
    Any layout of words and whitespace reads back as those words, plus the
    empty word when the layout ends in a plain space.
  */
  lemma ArgsFromSplit(seps: seq<string>, words: seq<string>)
    requires Separators(seps, words)
    requires forall i :: 0 <= i < |words| ==> IsWord(words[i])
    ensures var line := Interleave(seps, words);
      ArgsFrom(line) == if EndsInBlank(line) then words + [""] else words
  {
    FieldsOfSplit(seps, words);
  }

  /** Words joined by spaces split back into the same words. */
  lemma {:induction false} ArgsFromJoin(ws: seq<string>)
    requires |ws| > 0
    requires forall i :: 0 <= i < |ws| ==> IsWord(ws[i])
    ensures ArgsFrom(Join(ws, " ")) == ws
  {
    var j := Join(ws, " ");
    JoinEndsInWord(ws);
    assert j[|j| - 1] != ' ';
    FieldsJoinRoundTrip(ws);
  }

  /** After a trailing space the same words come back, followed by one empty word. */
  lemma {:induction false} ArgsFromJoinBlank(ws: seq<string>)
    requires forall i :: 0 <= i < |ws| ==> IsWord(ws[i])
    ensures ArgsFrom(Join(ws, " ") + " ") == ws + [""]
  {
    var line := Join(ws, " ") + " ";
    assert ArgsFrom(line) == Fields(line) + [""] by {
      assert line[|line| - 1] == ' ';
    }
    assert Fields(line) == ws by {
      FieldsJoinBlank(ws);
    }
  }

  /** Words joined by spaces split back into the same words, plus the empty word after a trailing space. */
  lemma {:induction false} ArgsFromRoundTrip(ws: seq<string>)
    requires forall i :: 0 <= i < |ws| ==> IsWord(ws[i])
    ensures ArgsFrom(Join(ws, " ") + " ") == ws + [""]
    ensures |ws| > 0 ==> ArgsFrom(Join(ws, " ")) == ws
  {
    ArgsFromJoinBlank(ws);
    if |ws| > 0 {
      ArgsFromJoin(ws);
    }
  }
}

=== FILE: lookup.dfy ===
/**
  Finding commands in the tree (z/cmd.go): the per-node alias table, name
  resolution, the greedy `Seek` walk, and the `Caller` back-references that
  `Path` follows.

  A node is identified by its address: the child indices that lead to it from
  the root. The `Caller` pointers that Go writes onto nodes are kept as a map
  from a node's address to its caller's address; a node that is not a key has
  a nil `Caller`.
*/
module Lookup {
  import opened Wrappers
  import opened Text
  import opened Commands

  type Addr = seq<nat>
  type Links = map<Addr, Addr>

  // ---------------------------------------------------------------- aliases

  /** Some child in `cmds` declares the alias `a`. */
  ghost predicate AliasedIn(cmds: seq<Cmd>, a: string) {
    exists j :: 0 <= j < |cmds| && a in cmds[j].aliases
  }

  /** Child `j` is the last of `cmds` that declares the alias `a`. */
  ghost predicate LastAliasing(cmds: seq<Cmd>, a: string, j: int) {
    0 <= j < |cmds| && a in cmds[j].aliases && forall k :: j < k < |cmds| ==> a !in cmds[k].aliases
  }

  /** What `AliasCache` promises: every declared alias maps to the last child declaring it. */
  ghost predicate CacheOf(cmds: seq<Cmd>, m: map<string, nat>) {
    && (forall a :: a in m <==> AliasedIn(cmds, a))
    && (forall a :: a in m ==> LastAliasing(cmds, a, m[a]))
  }

  /** The aliases of `c`, each mapped to the index `j`. */
  function AliasEntries(c: Cmd, j: nat): (m: map<string, nat>)
    ensures forall a :: a in m <==> a in c.aliases
    ensures forall a :: a in m ==> m[a] == j
  {
    map a | a in c.aliases :: j
  }

  lemma AliasCacheStep(cmds: seq<Cmd>, m: map<string, nat>)
    requires |cmds| > 0
    requires CacheOf(cmds[..|cmds| - 1], m)
    ensures CacheOf(cmds, m + AliasEntries(cmds[|cmds| - 1], |cmds| - 1))
  {
  }

  /**
    `cacheAliases`: alias to the index of the child declaring it. Children
    are visited in order and a later child overwrites an earlier one.
  */
  function AliasCache(cmds: seq<Cmd>): (m: map<string, nat>)
    ensures forall a :: a in m ==> m[a] < |cmds|
    ensures forall a :: a in m <==> AliasedIn(cmds, a)
    ensures forall a :: a in m ==> LastAliasing(cmds, a, m[a])
  {
    if |cmds| == 0 then map[]
    else
      var n := |cmds| - 1;
      var m := AliasCache(cmds[..n]);
      AliasCacheStep(cmds, m);
      m + AliasEntries(cmds[n], n)
  }

  /** Every index in `cache` names a child of `x`. */
  predicate CacheFits(x: Cmd, cache: map<string, nat>) {
    forall a :: a in cache ==> cache[a] < |x.commands|
  }

  // ------------------------------------------------------------- resolution

  /** The index of the first child of `cmds` called `name`. */
  function FirstNamed(cmds: seq<Cmd>, name: string): (r: Option<nat>)
    ensures r.Some? ==> r.value < |cmds| && cmds[r.value].name == name
    ensures r.Some? ==> forall j :: 0 <= j < r.value ==> cmds[j].name != name
    ensures r.None? ==> forall j :: 0 <= j < |cmds| ==> cmds[j].name != name
  {
    if |cmds| == 0 then None
    else if cmds[0].name == name then Some(0)
    else match FirstNamed(cmds[1..], name)
      case None => None
      case Some(i) => Some(i + 1)
  }

  /**
    `Resolve`: the child of `x` that `name` selects. An exact name wins (the
    first child so named); only when no child has that name is the alias
    table `cache` of `x` consulted. A node without children resolves nothing.
  */
  function Resolve(x: Cmd, cache: map<string, nat>, name: string): (r: Option<nat>)
    requires CacheFits(x, cache)
    ensures r.Some? ==> r.value < |x.commands|
    ensures |x.commands| == 0 ==> r.None?
    ensures NamedIn(x.commands, name) ==> r.Some? && x.commands[r.value].name == name
    ensures NamedIn(x.commands, name) ==> forall j :: 0 <= j < r.value ==> x.commands[j].name != name
    ensures |x.commands| > 0 && !NamedIn(x.commands, name) && name in cache ==> r == Some(cache[name])
    ensures !NamedIn(x.commands, name) && name !in cache ==> r.None?
  {
    if |x.commands| == 0 then None
    else match FirstNamed(x.commands, name)
      case Some(i) => Some(i)
      case None => if name in cache then Some(cache[name]) else None
  }

  /**
    With the table `cacheAliases` builds: when no child is called `a` and two
    or more declare it as an alias, the last of them is selected.
  */
  lemma ResolveAliasLastWins(x: Cmd, a: string, j: nat)
    requires !NamedIn(x.commands, a)
    requires j < |x.commands| && a in x.commands[j].aliases
    ensures var r := Resolve(x, AliasCache(x.commands), a);
      r.Some? && j <= r.value && a in x.commands[r.value].aliases
      && forall k :: r.value < k < |x.commands| ==> a !in x.commands[k].aliases
  {
  }

  /** A child's exact name beats any sibling's alias of the same spelling. */
  lemma ResolveNameBeatsAlias(x: Cmd, name: string, i: nat, j: nat)
    requires i < |x.commands| && x.commands[i].name == name
    requires j < |x.commands| && name in x.commands[j].aliases && x.commands[j].name != name
    ensures var r := Resolve(x, AliasCache(x.commands), name);
      r.Some? && r.value <= i && r.value != j
  {
  }

  /** After `Add`, the new child is found by its name unless an earlier sibling already has it. */
  lemma AddThenResolve(x: Cmd, name: string, aliases: seq<string>)
    requires !NamedIn(x.commands, name)
    ensures var (p, c) := Add(x, name, aliases);
      Resolve(p, AliasCache(p.commands), name) == Some(|x.commands|)
  {
  }

  // ---------------------------------------------------------------- addresses

  /** `a` leads from `x` through existing children. */
  predicate IsAddr(x: Cmd, a: Addr)
    decreases |a|
  {
    |a| == 0 || (a[0] < |x.commands| && IsAddr(x.commands[a[0]], a[1..]))
  }

  /** The node at address `a` below `x`. */
  function At(x: Cmd, a: Addr): Cmd
    requires IsAddr(x, a)
    decreases |a|
  {
    if |a| == 0 then x else At(x.commands[a[0]], a[1..])
  }

  lemma AtCons(x: Cmd, i: nat, b: Addr)
    requires i < |x.commands|
    ensures IsAddr(x, [i] + b) <==> IsAddr(x.commands[i], b)
    ensures IsAddr(x, [i] + b) ==> At(x, [i] + b) == At(x.commands[i], b)
  {
  }

  lemma {:induction false} AtExtend(x: Cmd, a: Addr, i: nat)
    requires IsAddr(x, a) && i < |At(x, a).commands|
    ensures IsAddr(x, a + [i]) && At(x, a + [i]) == At(x, a).commands[i]
    decreases |a|
  {
    if |a| == 0 {
      assert a + [i] == [i] + [];
      AtCons(x, i, []);
    } else {
      assert a + [i] == [a[0]] + (a[1..] + [i]);
      AtExtend(x.commands[a[0]], a[1..], i);
      AtCons(x, a[0], a[1..] + [i]);
    }
  }

  lemma {:induction false} AtPrefix(x: Cmd, a: Addr, k: nat)
    requires IsAddr(x, a) && k <= |a|
    ensures IsAddr(x, a[..k])
    decreases |a|
  {
    if k > 0 {
      AtPrefix(x.commands[a[0]], a[1..], k - 1);
      assert a[..k] == [a[0]] + a[1..][..k - 1];
      AtCons(x, a[0], a[1..][..k - 1]);
    }
  }

  /** The name of the node at `a`, or the empty string when `a` leads nowhere. */
  function NameAt(x: Cmd, a: Addr): string {
    if IsAddr(x, a) then At(x, a).name else ""
  }

  // --------------------------------------------------------------------- seek

  /** The result of `Seek`: the address of the target and the arguments it did not consume. */
  datatype Walk = Walk(addr: Addr, residual: seq<string>)

  /**
    `Seek`: starting at `x`, consume arguments while each one resolves to a
    child of the current node. `cache` is the alias table of `x`; `Run`
    builds only the root's table, so nodes further down resolve by name only.
  */
  function Seek(x: Cmd, cache: map<string, nat>, args: seq<string>): (w: Walk)
    requires CacheFits(x, cache)
    ensures IsAddr(x, w.addr)
    ensures |w.addr| <= |args| && w.residual == args[|w.addr|..]
    ensures |args| == 0 || |x.commands| == 0 ==> w == Walk([], args)
    decreases |args|
  {
    if |args| == 0 || |x.commands| == 0 then Walk([], args)
    else match Resolve(x, cache, args[0])
      case None => Walk([], args)
      case Some(i) =>
        var w := Seek(x.commands[i], map[], args[1..]);
        AtCons(x, i, w.addr);
        Walk([i] + w.addr, w.residual)
  }

  /** The alias table in force `depth` steps below the node `Seek` starts from. */
  function CacheAt(cache: map<string, nat>, depth: nat): map<string, nat> {
    if depth == 0 then cache else map[]
  }

  /** Each of the first `|addr|` arguments resolves, from the node reached so far, to the next step of `addr`. */
  ghost predicate Consumes(x: Cmd, cache: map<string, nat>, args: seq<string>, addr: Addr) {
    && CacheFits(x, cache)
    && |addr| <= |args|
    && IsAddr(x, addr)
    && forall k :: 0 <= k < |addr| ==>
         && IsAddr(x, addr[..k])
         && CacheFits(At(x, addr[..k]), CacheAt(cache, k))
         && Resolve(At(x, addr[..k]), CacheAt(cache, k), args[k]) == Some(addr[k])
  }

  /** No further step is possible from `addr`: nothing is left, or the next argument resolves to no child. */
  ghost predicate Stuck(x: Cmd, cache: map<string, nat>, addr: Addr, rest: seq<string>)
    requires IsAddr(x, addr)
  {
    || |rest| == 0
    || (CacheFits(At(x, addr), CacheAt(cache, |addr|))
        && Resolve(At(x, addr), CacheAt(cache, |addr|), rest[0]).None?)
  }

  /** A step to child `i` followed by a consuming walk from that child is a consuming walk from `x`. */
  lemma ConsumesCons(x: Cmd, cache: map<string, nat>, args: seq<string>, i: nat, b: Addr)
    requires CacheFits(x, cache) && |args| > 0 && i < |x.commands|
    requires Resolve(x, cache, args[0]) == Some(i)
    requires Consumes(x.commands[i], map[], args[1..], b)
    ensures Consumes(x, cache, args, [i] + b)
  {
    var a := [i] + b;
    AtCons(x, i, b);
    forall k | 0 <= k < |a|
      ensures IsAddr(x, a[..k])
      ensures CacheFits(At(x, a[..k]), CacheAt(cache, k))
      ensures Resolve(At(x, a[..k]), CacheAt(cache, k), args[k]) == Some(a[k])
    {
      if k == 0 {
        assert a[..k] == [];
      } else {
        assert a[..k] == [i] + b[..k - 1];
        AtCons(x, i, b[..k - 1]);
        assert args[k] == args[1..][k - 1];
      }
    }
  }

  /** Being stuck after child `i` and then `b` is being stuck after `[i] + b`. */
  lemma StuckCons(x: Cmd, cache: map<string, nat>, i: nat, b: Addr, rest: seq<string>)
    requires i < |x.commands| && IsAddr(x.commands[i], b)
    requires Stuck(x.commands[i], map[], b, rest)
    ensures IsAddr(x, [i] + b) && Stuck(x, cache, [i] + b, rest)
  {
    AtCons(x, i, b);
  }

  /** `Seek` consumes only resolving arguments and stops only where it must. */
  lemma {:induction false} SeekIsGreedy(x: Cmd, cache: map<string, nat>, args: seq<string>)
    requires CacheFits(x, cache)
    ensures var w := Seek(x, cache, args);
      Consumes(x, cache, args, w.addr) && Stuck(x, cache, w.addr, w.residual)
    decreases |args|
  {
    var w := Seek(x, cache, args);
    if |args| == 0 || |x.commands| == 0 || Resolve(x, cache, args[0]).None? {
      assert w.addr == [];
    } else {
      var i := Resolve(x, cache, args[0]).value;
      var v := Seek(x.commands[i], map[], args[1..]);
      SeekIsGreedy(x.commands[i], map[], args[1..]);
      assert w == Walk([i] + v.addr, v.residual);
      ConsumesCons(x, cache, args, i, v.addr);
      StuckCons(x, cache, i, v.addr, v.residual);
    }
  }

  /** A consuming walk of the children of `x` continues as a consuming walk from the child it first steps to. */
  lemma ConsumesTail(x: Cmd, cache: map<string, nat>, args: seq<string>, addr: Addr)
    requires Consumes(x, cache, args, addr) && |addr| > 0
    ensures Resolve(x, cache, args[0]) == Some(addr[0])
    ensures addr[0] < |x.commands|
    ensures Consumes(x.commands[addr[0]], map[], args[1..], addr[1..])
  {
    assert addr[..0] == [];
    var i := addr[0];
    var c := x.commands[i];
    var b := addr[1..];
    AtCons(x, i, b);
    forall k | 0 <= k < |b|
      ensures IsAddr(c, b[..k])
      ensures CacheFits(At(c, b[..k]), CacheAt(map[], k))
      ensures Resolve(At(c, b[..k]), CacheAt(map[], k), args[1..][k]) == Some(b[k])
    {
      assert addr[..k + 1] == [i] + b[..k];
      AtCons(x, i, b[..k]);
    }
  }

  /** Conversely, a consuming walk that is stuck is the one `Seek` takes. */
  lemma {:induction false} SeekUnique(x: Cmd, cache: map<string, nat>, args: seq<string>, addr: Addr)
    requires Consumes(x, cache, args, addr)
    requires Stuck(x, cache, addr, args[|addr|..])
    ensures Seek(x, cache, args).addr == addr
    decreases |args|
  {
    if |addr| == 0 {
      assert args[|addr|..] == args;
    } else {
      ConsumesTail(x, cache, args, addr);
      var i := addr[0];
      var c := x.commands[i];
      var b := addr[1..];
      AtCons(x, i, b);
      assert addr == [i] + b;
      assert args[1..][|b|..] == args[|addr|..];
      assert Stuck(c, map[], b, args[1..][|b|..]);
      SeekUnique(c, map[], args[1..], b);
    }
  }

  /** When every argument names a step, `Seek` reaches the node at the end and leaves nothing over. */
  lemma SeekFullMatch(x: Cmd, cache: map<string, nat>, args: seq<string>, addr: Addr)
    requires Consumes(x, cache, args, addr) && |addr| == |args|
    ensures Seek(x, cache, args) == Walk(addr, [])
  {
    SeekUnique(x, cache, args, addr);
  }

  /** When the first argument selects no child of the root, `Seek` returns the root and every argument. */
  lemma SeekNoMatch(x: Cmd, cache: map<string, nat>, args: seq<string>)
    requires CacheFits(x, cache)
    requires |args| > 0 && Resolve(x, cache, args[0]).None?
    ensures Seek(x, cache, args) == Walk([], args)
  {
  }

  // ----------------------------------------------------------- caller links

  /** The caller links after `Seek` took the steps `addr`: each node on the way now points to its parent. */
  function SeekLinks(links: Links, addr: Addr): (r: Links)
    ensures forall p :: p in r <==> p in links || (0 < |p| && p <= addr)
    ensures forall p :: p in r && 0 < |p| && p <= addr ==> r[p] == p[..|p| - 1]
    ensures forall p :: p in links && !(0 < |p| && p <= addr) ==> r[p] == links[p]
    decreases |addr|
  {
    if |addr| == 0 then links
    else
      var up := addr[..|addr| - 1];
      var r := SeekLinks(links, up);
      assert forall p :: (0 < |p| && p <= addr) <==> p == addr || (0 < |p| && p <= up);
      r[addr := up]
  }

  /**
    The nodes visited by following `Caller` links from `a`, starting with `a`
    itself; `None` when the walk has not reached a nil `Caller` within `fuel`
    steps (in Go the loop would still be running).
  */
  function CallerChain(links: Links, a: Addr, fuel: nat): (r: Option<seq<Addr>>)
    ensures r.Some? ==> |r.value| > 0 && r.value[0] == a
    ensures r.Some? ==> forall i :: 0 <= i < |r.value| - 1 ==> r.value[i] in links && links[r.value[i]] == r.value[i + 1]
    ensures r.Some? ==> r.value[|r.value| - 1] !in links && |r.value| <= fuel + 1
    ensures a !in links ==> r == Some([a])
    decreases fuel
  {
    if a !in links then Some([a])
    else if fuel == 0 then None
    else match CallerChain(links, links[a], fuel - 1)
      case None => None
      case Some(up) => Some([a] + up)
  }

  /**
    The converse of `CallerChain`'s contract: a walk that follows the links
    from `a` to a node with nil `Caller` within `fuel` steps is the walk
    returned, since Go's loop returns as soon as it reaches that node.
  */
  lemma {:induction false} CallerChainComplete(links: Links, a: Addr, fuel: nat, chain: seq<Addr>)
    requires |chain| > 0 && chain[0] == a && |chain| <= fuel + 1
    requires forall i :: 0 <= i < |chain| - 1 ==> chain[i] in links && links[chain[i]] == chain[i + 1]
    requires chain[|chain| - 1] !in links
    ensures CallerChain(links, a, fuel) == Some(chain)
    decreases fuel
  {
    if |chain| > 1 {
      CallerChainComplete(links, chain[1], fuel - 1, chain[1..]);
      assert chain == [a] + chain[1..];
    } else {
      assert chain == [a];
    }
  }

  /** The names of `chain` as `Path` stacks them: each one pushed in front of the ones before. */
  function Unshifted(x: Cmd, chain: seq<Addr>): (r: seq<string>)
    ensures |r| == |chain|
    ensures forall i :: 0 <= i < |chain| ==> r[i] == NameAt(x, chain[|chain| - 1 - i])
  {
    if |chain| == 0 then []
    else Unshifted(x, chain[1..]) + [NameAt(x, chain[0])]
  }

  /**
    `Path`: the names on the way from the top of the caller chain to `a`,
    without the topmost one. `None` stands for a walk that does not end.
  */
  function Path(x: Cmd, links: Links, a: Addr, fuel: nat): (r: Option<seq<string>>)
    ensures a !in links ==> r == Some([])
    ensures CallerChain(links, a, fuel).Some? <==> r.Some?
    ensures r.Some? ==> |r.value| == |CallerChain(links, a, fuel).value| - 1
    ensures r.Some? ==> forall i :: 0 <= i < |r.value| ==>
      r.value[i] == NameAt(x, CallerChain(links, a, fuel).value[|r.value| - 1 - i])
  {
    match CallerChain(links, a, fuel)
    case None => None
    case Some(chain) => Some(Unshifted(x, chain)[1..])
  }

  /** `PathString`: the `Path` joined with dots. */
  function PathString(x: Cmd, links: Links, a: Addr, fuel: nat): (r: Option<string>)
    ensures a !in links ==> r == Some("")
    ensures r.Some? <==> Path(x, links, a, fuel).Some?
  {
    match Path(x, links, a, fuel)
    case None => None
    case Some(p) => Some(Join(p, "."))
  }

  /** The names of the nodes stepped to along `a`, the root excluded. */
  function ConsumedNames(x: Cmd, a: Addr): (r: seq<string>)
    ensures |r| == |a|
  {
    seq(|a|, k requires 0 <= k < |a| => NameAt(x, a[..k + 1]))
  }

  /** With every prefix of `a` pointing at its parent and a root without caller, the chain climbs `a` to the root. */
  lemma {:induction false} ChainAlongPrefixes(links: Links, a: Addr, fuel: nat)
    requires forall k :: 0 < k <= |a| ==> a[..k] in links && links[a[..k]] == a[..k - 1]
    requires [] !in links
    requires fuel >= |a|
    ensures CallerChain(links, a, fuel) == Some(seq(|a| + 1, i requires 0 <= i <= |a| => a[..|a| - i]))
    decreases |a|
  {
    var want := seq(|a| + 1, i requires 0 <= i <= |a| => a[..|a| - i]);
    if |a| == 0 {
      assert want == [[]];
    } else {
      var b := a[..|a| - 1];
      assert a[..|a|] == a;
      forall k | 0 < k <= |b|
        ensures b[..k] in links && links[b[..k]] == b[..k - 1]
      {
        assert b[..k] == a[..k] && b[..k - 1] == a[..k - 1];
      }
      ChainAlongPrefixes(links, b, fuel - 1);
      var up := seq(|b| + 1, i requires 0 <= i <= |b| => b[..|b| - i]);
      forall i | 0 <= i <= |a|
        ensures want[i] == ([a] + up)[i]
      {
        if i > 0 {
          assert b[..|b| - (i - 1)] == a[..|a| - i];
        }
      }
      assert want == [a] + up;
    }
  }

  /** After `Seek` along `a`, every non-empty prefix of `a` points to its parent, and the root still has no caller. */
  lemma SeekLinksClimb(links: Links, a: Addr)
    requires [] !in links
    ensures [] !in SeekLinks(links, a)
    ensures forall k :: 0 < k <= |a| ==> a[..k] in SeekLinks(links, a) && SeekLinks(links, a)[a[..k]] == a[..k - 1]
  {
  }

  /** The names of the prefixes of `a`, from the longest down, stacked by `Path`, are the consumed names below the root. */
  lemma UnshiftedPrefixes(x: Cmd, a: Addr)
    ensures Unshifted(x, seq(|a| + 1, i requires 0 <= i <= |a| => a[..|a| - i]))[1..] == ConsumedNames(x, a)
  {
  }

  /**
    After `Seek` steps along `a` from a root that has no caller, `Path` of the
    target is the names of the nodes stepped to, and `PathString` joins them
    with dots.
  */
  lemma {:induction false} PathAfterSeek(x: Cmd, links: Links, a: Addr)
    requires IsAddr(x, a) && [] !in links
    ensures Path(x, SeekLinks(links, a), a, |a|) == Some(ConsumedNames(x, a))
    ensures PathString(x, SeekLinks(links, a), a, |a|) == Some(Join(ConsumedNames(x, a), "."))
  {
    SeekLinksClimb(links, a);
    ChainAlongPrefixes(SeekLinks(links, a), a, |a|);
    UnshiftedPrefixes(x, a);
  }
}

=== FILE: multicall.dfy ===
/**
  Multicall `Run` (z/bonzai.go): the executable's base name selects an entry
  of `Z.Commands`, whose first element is the root command and whose other
  elements are strings placed before the invocation's own arguments.
*/
module Multicall {
  import opened Wrappers
  import opened Commands
  import opened Dispatch

  /** An element of a `Z.Commands` entry, which Go types as `any`. */
  datatype Value = CmdValue(cmd: Cmd) | StrValue(str: string) | OtherValue

  /** What multicall hands to `Cmd.Run`: a root and the new `os.Args`, or the reason it stops. */
  datatype Launch = Start(root: Cmd, argv: seq<string>) | Abort(kind: ErrorKind, msg: string)

  /** Some element after the first is not a string. */
  predicate HasNonString(v: seq<Value>) {
    exists i :: 1 <= i < |v| && !v[i].StrValue?
  }

  /** The elements as strings, provided every one of them is a string. */
  function Strings(vs: seq<Value>): (r: Option<seq<string>>)
    ensures r.Some? <==> forall i :: 0 <= i < |vs| ==> vs[i].StrValue?
    ensures r.Some? ==> |r.value| == |vs| && forall i :: 0 <= i < |vs| ==> r.value[i] == vs[i].str
  {
    if |vs| == 0 then Some([])
    else if !vs[0].StrValue? then None
    else match Strings(vs[1..])
      case None => None
      case Some(rest) => Some([vs[0].str] + rest)
  }

  /**
    The entry checks and argument list of multicall `Run` as written: the
    invocation's arguments are appended only when the entry carries strings
    to prepend, so an entry holding just the command drops them.
  */
  function LaunchAsWritten(table: map<string, seq<Value>>, exeName: string, osArgs: seq<string>): (l: Launch)
    ensures exeName in table && |table[exeName]| == 1 && table[exeName][0].CmdValue? ==>
      l == Start(table[exeName][0].cmd, [table[exeName][0].cmd.name])
  {
    if exeName !in table then Abort(Unmapped, "unmapped multicall command: " + exeName)
    else
      var v := table[exeName];
      if |v| < 1 then Abort(MulticallMissing, "multicall command missing")
      else if !v[0].CmdValue? then Abort(FirstNotCmd, "first value must be *Cmd")
      else if |v| == 1 then Start(v[0].cmd, [v[0].cmd.name])
      else if |osArgs| == 0 then Abort(Panic, SliceOutOfRange)
      else match Strings(v[1..])
        case None => Abort(NotString, "only string arguments allowed")
        case Some(extra) => Start(v[0].cmd, [v[0].cmd.name] + extra + osArgs[1..])
  }

  /**
    Multicall `Run` as evidently intended: the command's name, then the
    entry's strings, then the invocation's arguments after the program name,
    whether or not there are strings to prepend.
  */
  function MulticallLaunch(table: map<string, seq<Value>>, exeName: string, osArgs: seq<string>): (l: Launch)
    ensures exeName !in table ==> l == Abort(Unmapped, "unmapped multicall command: " + exeName)
    ensures exeName in table && |table[exeName]| == 0 ==> l == Abort(MulticallMissing, "multicall command missing")
    ensures exeName in table && |table[exeName]| > 0 && !table[exeName][0].CmdValue? ==>
      l == Abort(FirstNotCmd, "first value must be *Cmd")
    ensures exeName in table && |table[exeName]| > 0 && table[exeName][0].CmdValue? && |osArgs| == 0 ==>
      l == Abort(Panic, SliceOutOfRange)
    ensures (exeName in table && |table[exeName]| > 0 && table[exeName][0].CmdValue? && |osArgs| > 0 &&
             HasNonString(table[exeName])) ==> l == Abort(NotString, "only string arguments allowed")
    ensures l.Start? ==> exeName in table && |table[exeName]| > 0 && table[exeName][0] == CmdValue(l.root)
    ensures l.Start? ==> |osArgs| > 0 && |l.argv| == |table[exeName]| + |osArgs| - 1
    ensures l.Start? ==> l.argv[0] == l.root.name
    ensures l.Start? ==> forall i :: 1 <= i < |table[exeName]| ==> l.argv[i] == table[exeName][i].str
    ensures l.Start? ==> l.argv[|table[exeName]|..] == osArgs[1..]
  {
    if exeName !in table then Abort(Unmapped, "unmapped multicall command: " + exeName)
    else
      var v := table[exeName];
      if |v| < 1 then Abort(MulticallMissing, "multicall command missing")
      else if !v[0].CmdValue? then Abort(FirstNotCmd, "first value must be *Cmd")
      else if |osArgs| == 0 then Abort(Panic, SliceOutOfRange)
      else match Strings(v[1..])
        case None =>
          assert HasNonString(v) by {
            var j :| 0 <= j < |v[1..]| && !v[1..][j].StrValue?;
            assert !v[j + 1].StrValue?;
          }
          Abort(NotString, "only string arguments allowed")
        case Some(extra) =>
          assert forall i :: 1 <= i < |v| ==> v[i].StrValue? by {
            assert forall i :: 1 <= i < |v| ==> v[1..][i - 1] == v[i];
          }
          Start(v[0].cmd, [v[0].cmd.name] + extra + osArgs[1..])
  }

  /** Where the entry has strings to prepend, the code as written already behaves as intended. */
  lemma LaunchAgreesWithStrings(table: map<string, seq<Value>>, exeName: string, osArgs: seq<string>)
    requires exeName !in table || |table[exeName]| != 1
    ensures LaunchAsWritten(table, exeName, osArgs) == MulticallLaunch(table, exeName, osArgs)
  {
  }

  /**
    The discrepancy: with an entry holding only the command, running the
    executable with arguments launches the command without them.
  */
  lemma LaunchAsWrittenDropsArgs(c: Cmd, exeName: string)
    ensures var table := map[exeName := [CmdValue(c)]];
      && LaunchAsWritten(table, exeName, [exeName, "-l"]) == Start(c, [c.name])
      && MulticallLaunch(table, exeName, [exeName, "-l"]) == Start(c, [c.name, "-l"])
  {
  }

  /** Multicall `Run`: the selected root is run with the rebuilt arguments, or the entry's error is reported. */
  function MulticallRun(table: map<string, seq<Value>>, exeName: string, env: Env, hooks: Hooks): (o: Outcome)
    requires KeyOrder(env.aliasOrder, env.aliases)
    ensures exeName !in table ==> o == Error(Unmapped, "unmapped multicall command: " + exeName)
    ensures var l := MulticallLaunch(table, exeName, env.argv);
      l.Start? ==> o == Run(l.root, env.(argv := l.argv), hooks)
    ensures var l := MulticallLaunch(table, exeName, env.argv);
      l.Abort? ==> o == Error(l.kind, l.msg)
  {
    match MulticallLaunch(table, exeName, env.argv)
    case Abort(kind, msg) => Error(kind, msg)
    case Start(root, argv) => Run(root, env.(argv := argv), hooks)
  }

  /**
    The exit status of multicall `Run`. The entry's errors go through
    `ExitError` (status 1). A panic while rebuilding the arguments happens
    before `Cmd.Run` defers `TrapPanic`, so nothing recovers it and the Go
    runtime ends the process with status 2 whatever `AllowPanic` says.
    Otherwise the status is that of `Cmd.Run`.
  */
  function MulticallExitCode(table: map<string, seq<Value>>, exeName: string, env: Env, hooks: Hooks,
                             action: ActionEnd, allowPanic: bool): (code: nat)
    requires KeyOrder(env.aliasOrder, env.aliases)
    ensures code <= 2
    ensures var l := MulticallLaunch(table, exeName, env.argv);
      l.Abort? ==> (code == 2 <==> l.kind == Panic) && (code == 1 <==> l.kind != Panic)
    ensures var l := MulticallLaunch(table, exeName, env.argv);
      l.Start? ==> code == ExitCode(Run(l.root, env.(argv := l.argv), hooks), action, allowPanic)
  {
    match MulticallLaunch(table, exeName, env.argv)
    case Abort(kind, _) => if kind == Panic then 2 else 1
    case Start(root, argv) => ExitCode(Run(root, env.(argv := argv), hooks), action, allowPanic)
  }

  /**
    A multicall panic escapes `TrapPanic`: the same panic inside `Cmd.Run`
    exits with status 1 unless `AllowPanic` is set, but before it, always 2.
    The code as written panics here too: the entry has strings to prepend,
    so it reaches `os.Args[1:]`.
  */
  lemma MulticallPanicUntrapped(table: map<string, seq<Value>>, exeName: string, env: Env, hooks: Hooks, action: ActionEnd)
    requires KeyOrder(env.aliasOrder, env.aliases)
    requires exeName in table && |table[exeName]| > 1 && table[exeName][0].CmdValue? && |env.argv| == 0
    ensures LaunchAsWritten(table, exeName, env.argv) == Abort(Panic, SliceOutOfRange)
    ensures MulticallRun(table, exeName, env, hooks) == Error(Panic, SliceOutOfRange)
    ensures MulticallExitCode(table, exeName, env, hooks, action, false) == 2
    ensures ExitCode(Error(Panic, SliceOutOfRange), action, false) == 1
  {
  }
}

=== FILE: run.dfy ===
/**
  `Cmd.Run` (z/cmd.go) as a decision: given the root, the process
  environment and the hooks standing for code outside the tree, what the run
  does. Printing, exiting and calling the action are left to whoever
  interprets the `Outcome`; a runtime panic that `TrapPanic` would catch is an
  `Error(Panic, ...)`.
*/
module Dispatch {
  import opened Wrappers
  import opened Text
  import opened Commands
  import opened Lookup
  import opened Usage
  import opened Line
  import opened Completion

  datatype ErrorKind =
    | Panic               // a runtime fault caught by TrapPanic
    | DefaultWithoutCall  // the default first child has no Call
    | Unimplemented       // the target has neither Call nor children
    | BadUsage            // fewer residual arguments than MinArgs
    | ConfigMissing       // the root has ReqConf but no Z.Conf is assigned
    | Unmapped            // multicall: no entry for the executable's name
    | MulticallMissing    // multicall: the entry is empty
    | FirstNotCmd         // multicall: the entry does not start with a command
    | NotString           // multicall: a later element of the entry is not a string

  datatype Outcome =
    | Suggest(list: seq<string>)      // completion candidates, one per line
    | Expansion(words: seq<string>)   // a lone shorthand alias completed to its expansion
    | Error(kind: ErrorKind, msg: string)
    | Invoke(addr: Addr, target: Cmd, residual: seq<string>, links: Links)
      // call the target's action with the residual arguments; `links` are the
      // caller links in force during the call

  /**
    The code the tree cannot see: completers, usage functions, the one
    assigned to `Z.UsageFunc` (`None` while it is `InferredUsage`), and
    `UsageGroup`.
  */
  datatype Hooks = Hooks(
    complete: Completer,
    usage: (UsageFuncId, Cmd) -> string,
    usageFallback: Option<UsageFuncId>,
    group: Grouper)

  /**
    The process-wide state `Run` reads: `os.Args`, the shorthand table
    `Z.Aliases` with the order Go's map iteration happens to visit its keys,
    the `COMP_LINE` variable ("" when unset), whether `Z.Conf` is assigned,
    and the caller links earlier runs left on the tree (empty for a fresh
    tree).
  */
  datatype Env = Env(
    argv: seq<string>,
    aliases: map<string, seq<string>>,
    aliasOrder: seq<string>,
    compLine: string,
    confPresent: bool,
    links: Links)

  /** `order` lists every key of `aliases` exactly once. */
  ghost predicate KeyOrder(order: seq<string>, aliases: map<string, seq<string>>) {
    && (forall k :: k in order <==> k in aliases)
    && (forall i, j :: 0 <= i < j < |order| ==> order[i] != order[j])
  }

  /** Go's message for slicing `[1:]` off an empty slice. */
  const SliceOutOfRange := "runtime error: slice bounds out of range [1:0]"

  /**
    Shorthand expansion: when the first argument after the program name is
    a key of the table, it is replaced by its expansion and the remaining
    arguments follow unexpanded.
  */
  function Shorthand(argv: seq<string>, aliases: map<string, seq<string>>): (r: seq<string>)
    ensures |argv| > 1 && argv[1] in aliases ==> r == [argv[0]] + aliases[argv[1]] + argv[2..]
    ensures !(|argv| > 1 && argv[1] in aliases) ==> r == argv
  {
    if |argv| > 1 && argv[1] in aliases then [argv[0]] + aliases[argv[1]] + argv[2..]
    else argv
  }

  /** `maps.KeysWithPrefix(Z.Aliases, word)` when the line has exactly two words, else nothing. */
  function AliasSuggestions(lineArgs: seq<string>, aliases: map<string, seq<string>>, order: seq<string>): (r: seq<string>)
    requires KeyOrder(order, aliases)
    ensures |lineArgs| == 2 ==> forall k :: k in r <==> k in aliases && lineArgs[1] <= k
    ensures |lineArgs| != 2 ==> r == []
  {
    if |lineArgs| == 2 then KeepPrefixed(order, lineArgs[1]) else []
  }

  /** The node completion runs on and what is left of the line for it. */
  function CompletionWalk(root: Cmd, lineArgs: seq<string>): (w: Walk)
    requires |lineArgs| > 0
    ensures IsAddr(root, w.addr)
  {
    Seek(root, AliasCache(root.commands), lineArgs[1..])
  }

  /** The candidates offered when the completion target has no completer of its own. */
  function Candidates(root: Cmd, lineArgs: seq<string>, aliases: map<string, seq<string>>, order: seq<string>, complete: Completer): seq<string>
    requires |lineArgs| > 0 && KeyOrder(order, aliases)
  {
    var w := CompletionWalk(root, lineArgs);
    AliasSuggestions(lineArgs, aliases, order) + Standard(At(root, w.addr), w.residual, complete)
  }

  /**
    The completion branch of `Run`: it answers with candidates (or an alias
    expansion) and never dispatches. A line of whitespace that does not end
    in a space yields no words, and slicing off the first word panics.
  */
  function CompletionReply(root: Cmd, line: string, aliases: map<string, seq<string>>, order: seq<string>, complete: Completer): (o: Outcome)
    requires line != "" && KeyOrder(order, aliases)
    ensures !o.Invoke?
    ensures o.Error? <==> |ArgsFrom(line)| == 0
    ensures o.Error? ==> o.kind == Panic
    ensures o.Expansion? ==> |ArgsFrom(line)| == 2 && exists k :: k in aliases && o.words == aliases[k]
    ensures o.Expansion? ==> var la := ArgsFrom(line); var list := Candidates(root, la, aliases, order, complete);
      |la| == 2 && |list| == 1 && list[0] in aliases && o.words == aliases[list[0]]
  {
    var lineArgs := ArgsFrom(line);
    if |lineArgs| == 0 then Error(Panic, SliceOutOfRange)
    else
      var w := CompletionWalk(root, lineArgs);
      var t := At(root, w.addr);
      if t.completer.Some? then
        Suggest(complete(t.completer.value, t, w.residual))
      else
        var list := Candidates(root, lineArgs, aliases, order, complete);
        if |list| == 1 && |lineArgs| == 2 && list[0] in aliases then
          Expansion(aliases[list[0]])
        else Suggest(list)
  }

  /** A target with its own completer answers alone: the alias suggestions are dropped. */
  lemma CompletionDelegates(root: Cmd, line: string, aliases: map<string, seq<string>>, order: seq<string>, complete: Completer)
    requires line != "" && KeyOrder(order, aliases)
    requires |ArgsFrom(line)| > 0
    requires var w := CompletionWalk(root, ArgsFrom(line)); At(root, w.addr).completer.Some?
    ensures var w := CompletionWalk(root, ArgsFrom(line)); var t := At(root, w.addr);
      CompletionReply(root, line, aliases, order, complete) == Suggest(complete(t.completer.value, t, w.residual))
  {
  }

  /** A candidate is a shorthand key extending the second word of a two-word line, or a standard suggestion. */
  lemma CandidatesMembers(root: Cmd, lineArgs: seq<string>, aliases: map<string, seq<string>>, order: seq<string>, complete: Completer)
    requires |lineArgs| > 0 && KeyOrder(order, aliases)
    ensures var w := CompletionWalk(root, lineArgs);
      forall s :: s in Candidates(root, lineArgs, aliases, order, complete) <==>
        (|lineArgs| == 2 && s in aliases && lineArgs[1] <= s) || s in Standard(At(root, w.addr), w.residual, complete)
  {
  }

  /** Without a completer on the target, the reply is the candidates, or the expansion of a lone shorthand key on a two-word line. */
  lemma ReplyWithoutCompleter(root: Cmd, line: string, aliases: map<string, seq<string>>, order: seq<string>, complete: Completer)
    requires line != "" && KeyOrder(order, aliases)
    requires |ArgsFrom(line)| > 0
    requires var w := CompletionWalk(root, ArgsFrom(line)); At(root, w.addr).completer.None?
    ensures var la := ArgsFrom(line); var list := Candidates(root, la, aliases, order, complete);
      CompletionReply(root, line, aliases, order, complete)
        == if |list| == 1 && |la| == 2 && list[0] in aliases then Expansion(aliases[list[0]]) else Suggest(list)
  {
  }

  /**
    Without a completer on the target, every candidate is a shorthand key
    extending the second word (only on a two-word line) or a standard
    suggestion; on a two-word line every such key is offered unless the lone
    candidate turns into its expansion.
  */
  lemma CompletionCandidates(root: Cmd, line: string, aliases: map<string, seq<string>>, order: seq<string>, complete: Completer)
    requires line != "" && KeyOrder(order, aliases)
    requires |ArgsFrom(line)| > 0
    requires var w := CompletionWalk(root, ArgsFrom(line)); At(root, w.addr).completer.None?
    ensures var la := ArgsFrom(line); var w := CompletionWalk(root, la);
      var std := Standard(At(root, w.addr), w.residual, complete);
      var list := Candidates(root, la, aliases, order, complete);
      var o := CompletionReply(root, line, aliases, order, complete);
      && (o.Suggest? ==> forall s :: s in o.list ==> (|la| == 2 && s in aliases && la[1] <= s) || s in std)
      && (o.Suggest? && |la| == 2 ==> forall k :: k in aliases && la[1] <= k ==> k in o.list)
      && (o.Suggest? ==> forall s :: s in std ==> s in o.list)
      && (o.Expansion? <==> |la| == 2 && |list| == 1 && list[0] in aliases)
      && (o.Expansion? ==> |list| > 0 && list[0] in aliases && o.words == aliases[list[0]])
  {
    var la := ArgsFrom(line);
    CandidatesMembers(root, la, aliases, order, complete);
    ReplyWithoutCompleter(root, line, aliases, order, complete);
  }

  // -------------------------------------------------------------- dispatch

  /**
    The Caller default as written: a target without a Caller gets the root
    as its Caller, so a root invoked directly becomes its own Caller.
  */
  function DefaultCallerAsWritten(links: Links, addr: Addr): (r: Links)
    ensures addr in r
    ensures forall p :: p in links ==> p in r && r[p] == links[p]
    ensures forall p :: p in r && p !in links ==> p == addr && r[p] == []
    ensures addr !in links ==> r == links[addr := []]
  {
    if addr in links then links else links[addr := []]
  }

  /** Once the root is its own caller, walking up from it never reaches a nil `Caller`. */
  lemma {:induction false} RootSelfCallerNeverEnds(links: Links, fuel: nat)
    requires [] in links && links[[]] == []
    ensures CallerChain(links, [], fuel).None?
    decreases fuel
  {
    if fuel > 0 {
      RootSelfCallerNeverEnds(links, fuel - 1);
    }
  }

  /**
    The defaulting of `Caller` as evidently intended: a target without a
    caller gets the root, except the root itself, which keeps none.
  */
  function DefaultCaller(links: Links, addr: Addr): (r: Links)
    ensures addr != [] ==> addr in r
    ensures forall p :: p in links ==> p in r && r[p] == links[p]
    ensures forall p :: p in r && p !in links ==> p == addr && r[p] == [] && p != []
  {
    if addr in links || addr == [] then links else links[addr := []]
  }

  /** Where dispatch goes after `Seek`: the node to invoke, or why there is none. */
  datatype Target = Found(addr: Addr) | Refused(kind: ErrorKind, msg: string)

  /**
    The default-command rule: a target with an action is invoked itself; one
    without an action falls back to its first child, which must have one;
    one with neither action nor children is reported as the root (not the
    target) being unimplemented.
  */
  function EffectiveTarget(root: Cmd, seeked: Addr): (r: Target)
    requires IsAddr(root, seeked)
    ensures r.Found? ==> IsAddr(root, r.addr) && At(root, r.addr).call.Some?
    ensures At(root, seeked).call.Some? ==> r == Found(seeked)
    ensures var t := At(root, seeked);
      t.call.None? && |t.commands| > 0 && t.commands[0].call.Some? ==>
        r == Found(seeked + [0]) && At(root, r.addr) == t.commands[0]
    ensures var t := At(root, seeked);
      t.call.None? && |t.commands| > 0 && t.commands[0].call.None? ==>
        r == Refused(DefaultWithoutCall, "default commands require Call function")
    ensures var t := At(root, seeked);
      t.call.None? && |t.commands| == 0 ==> r == Refused(Unimplemented, UnimplementedMsg(root))
  {
    var t := At(root, seeked);
    if t.call.Some? then Found(seeked)
    else if |t.commands| > 0 then
      if t.commands[0].call.None? then
        Refused(DefaultWithoutCall, "default commands require Call function")
      else
        AtExtend(root, seeked, 0);
        Found(seeked + [0])
    else
      Refused(Unimplemented, UnimplementedMsg(root))
  }

  /**
    The dispatch part of `Run`: seek the target, settle the effective target,
    check `MinArgs` on it and `ReqConf` on the root, then invoke. `Caller` is
    defaulted as evidently intended (`DefaultCaller`); `DecideAsWrittenLinks`
    says what the code as written leaves instead.
  */
  function Decide(root: Cmd, args: seq<string>, confPresent: bool, links: Links, hooks: Hooks): (o: Outcome)
    ensures o.Invoke? || o.Error?
    ensures o.Error? ==> o.kind in {DefaultWithoutCall, Unimplemented, BadUsage, ConfigMissing}
    ensures o.Invoke? ==> IsAddr(root, o.addr) && o.target == At(root, o.addr)
    ensures o.Invoke? ==> o.target.call.Some? && |o.residual| >= o.target.minArgs
    ensures o.Invoke? && root.reqConf ==> confPresent
    ensures o.Invoke? ==> var t := EffectiveTarget(root, Seek(root, AliasCache(root.commands), args).addr);
      t.Found? && o.addr == t.addr
    ensures o.Invoke? ==> o.residual == Seek(root, AliasCache(root.commands), args).residual
    ensures o.Invoke? ==> o.links == DefaultCaller(SeekLinks(links, o.addr), o.addr)
  {
    var w := Seek(root, AliasCache(root.commands), args);
    match EffectiveTarget(root, w.addr)
    case Refused(kind, msg) => Error(kind, msg)
    case Found(addr) =>
      var cmd := At(root, addr);
      if |w.residual| < cmd.minArgs then
        Error(BadUsage, UsageError(cmd, hooks.usage, hooks.usageFallback, hooks.group))
      else if root.reqConf && !confPresent then
        Error(ConfigMissing, ReqConfMsg(cmd))
      else
        Invoke(addr, cmd, w.residual, DefaultCaller(SeekLinks(links, addr), addr))
  }

  /**
    `Run`: shorthand expansion, then either the completion branch (when a
    completion line is present) or dispatch of the expanded arguments after
    the program name.
  */
  function Run(root: Cmd, env: Env, hooks: Hooks): (o: Outcome)
    requires KeyOrder(env.aliasOrder, env.aliases)
    ensures env.compLine != "" ==> !o.Invoke?
    ensures env.compLine == "" ==> o.Invoke? || o.Error?
    ensures env.compLine == "" && |Shorthand(env.argv, env.aliases)| == 0 ==> o == Error(Panic, SliceOutOfRange)
    ensures env.compLine != "" ==> o == CompletionReply(root, env.compLine, env.aliases, env.aliasOrder, hooks.complete)
    ensures var e := Shorthand(env.argv, env.aliases);
      env.compLine == "" && |e| > 0 ==> o == Decide(root, e[1..], env.confPresent, env.links, hooks)
  {
    var argv := Shorthand(env.argv, env.aliases);
    if env.compLine != "" then
      CompletionReply(root, env.compLine, env.aliases, env.aliasOrder, hooks.complete)
    else if |argv| == 0 then
      Error(Panic, SliceOutOfRange)
    else
      Decide(root, argv[1..], env.confPresent, env.links, hooks)
  }

  /** How the invoked action ended: it returned nil, returned an error, or panicked. */
  datatype ActionEnd = Done | Failed(err: string) | Panicked

  /** The run ends in a panic: a runtime fault of `Run` itself, or one raised by the action. */
  predicate Panics(o: Outcome, action: ActionEnd) {
    (o.Error? && o.kind == Panic) || (o.Invoke? && action.Panicked?)
  }

  /**
    The exit status of a `Cmd.Run` whose outcome is `o`: `Exit` gives 0,
    `ExitError` gives 1, and so does a panic that the deferred `TrapPanic`
    recovers. With `AllowPanic` set `TrapPanic` leaves the panic alone and
    the Go runtime ends the process with status 2.
  */
  function ExitCode(o: Outcome, action: ActionEnd, allowPanic: bool): (code: nat)
    ensures code <= 2
    ensures code == 2 <==> Panics(o, action) && allowPanic
    ensures code == 1 <==> (Panics(o, action) && !allowPanic) || (o.Error? && o.kind != Panic) || (o.Invoke? && action.Failed?)
    ensures code == 0 <==> o.Suggest? || o.Expansion? || (o.Invoke? && action.Done?)
  {
    match o
    case Error(kind, _) => if kind == Panic && allowPanic then 2 else 1
    case Invoke(_, _, _, _) =>
      (match action
       case Done => 0
       case Failed(_) => 1
       case Panicked => if allowPanic then 2 else 1)
    case _ => 0
  }

  // ---------------------------------------------------------------- lemmas

  /** With no shorthand key at the front of the expansion, running the shorthand is running its expansion. */
  lemma ShorthandTransparent(root: Cmd, env: Env, hooks: Hooks)
    requires KeyOrder(env.aliasOrder, env.aliases)
    requires var e := Shorthand(env.argv, env.aliases); !(|e| > 1 && e[1] in env.aliases)
    ensures Run(root, env, hooks) == Run(root, env.(argv := Shorthand(env.argv, env.aliases)), hooks)
  {
  }

  /**
    Once an effective target is found, too few residual arguments give the
    usage error, a root needing configuration without one gives the
    configuration error, and otherwise the action is invoked with exactly the
    residual arguments.
  */
  lemma DispatchChecks(root: Cmd, args: seq<string>, confPresent: bool, links: Links, hooks: Hooks)
    requires var w := Seek(root, AliasCache(root.commands), args);
      EffectiveTarget(root, w.addr).Found?
    ensures var w := Seek(root, AliasCache(root.commands), args);
      var cmd := At(root, EffectiveTarget(root, w.addr).addr);
      var o := Decide(root, args, confPresent, links, hooks);
      && (|w.residual| < cmd.minArgs <==> o.Error? && o.kind == BadUsage)
      && (|w.residual| < cmd.minArgs ==> o.msg == UsageError(cmd, hooks.usage, hooks.usageFallback, hooks.group))
      && (|w.residual| >= cmd.minArgs && root.reqConf && !confPresent <==> o.Error? && o.kind == ConfigMissing)
      && (|w.residual| >= cmd.minArgs && root.reqConf && !confPresent ==> o.msg == ReqConfMsg(cmd))
      && (|w.residual| >= cmd.minArgs && (!root.reqConf || confPresent) <==> o.Invoke?)
      && (o.Invoke? ==> o.target == cmd && o.residual == w.residual)
  {
  }

  /** Whatever the effective target, a missing action or default action is reported before any argument check. */
  lemma DispatchRefusal(root: Cmd, args: seq<string>, confPresent: bool, links: Links, hooks: Hooks)
    requires var w := Seek(root, AliasCache(root.commands), args);
      EffectiveTarget(root, w.addr).Refused?
    ensures var w := Seek(root, AliasCache(root.commands), args);
      var r := EffectiveTarget(root, w.addr);
      Decide(root, args, confPresent, links, hooks) == Error(r.kind, r.msg)
  {
  }

  /** `ReqConf` is read from the root only: a target that needs configuration under a root that does not is run anyway. */
  lemma ReqConfOnRootOnly(root: Cmd, args: seq<string>, links: Links, hooks: Hooks)
    requires !root.reqConf
    ensures var o := Decide(root, args, false, links, hooks);
      !(o.Error? && o.kind == ConfigMissing)
  {
  }

  /** After `Seek`, the corrected defaulting of `Caller` changes nothing when the root had no caller. */
  lemma SeekedLinksEnd(links: Links, addr: Addr)
    requires [] !in links
    ensures DefaultCaller(SeekLinks(links, addr), addr) == SeekLinks(links, addr)
  {
  }

  /**
    With the corrected defaulting of `Caller`, a node reached by `Seek` from a
    root without a caller has a `Path` that ends: the names of the nodes
    stepped to below the root.
  */
  lemma {:induction false} InvokedPath(root: Cmd, links: Links, addr: Addr)
    requires IsAddr(root, addr) && [] !in links
    ensures Path(root, DefaultCaller(SeekLinks(links, addr), addr), addr, |addr|) == Some(ConsumedNames(root, addr))
  {
    SeekedLinksEnd(links, addr);
    PathAfterSeek(root, links, addr);
  }

  /**
    With the corrected defaulting of `Caller`, the action of a fresh run sees
    a `Path` that ends: the names of the nodes stepped to below the root
    (the default child included), and the root itself has an empty path.
  */
  lemma DispatchPath(root: Cmd, args: seq<string>, confPresent: bool, links: Links, hooks: Hooks)
    requires [] !in links
    ensures var o := Decide(root, args, confPresent, links, hooks);
      o.Invoke? ==> Path(root, o.links, o.addr, |o.addr|) == Some(ConsumedNames(root, o.addr))
  {
    var o := Decide(root, args, confPresent, links, hooks);
    if o.Invoke? {
      InvokedPath(root, links, o.addr);
    }
  }

  /**
    The code as written leaves the same caller links as `Decide`, except that
    a root invoked while it has no caller becomes its own.
  */
  lemma DecideAsWrittenLinks(root: Cmd, args: seq<string>, confPresent: bool, links: Links, hooks: Hooks)
    ensures var o := Decide(root, args, confPresent, links, hooks);
      o.Invoke? ==>
        DefaultCallerAsWritten(SeekLinks(links, o.addr), o.addr)
          == (if o.addr == [] && [] !in o.links then o.links[[] := []] else o.links)
  {
  }

  /**
    As written, a root with its own action run on arguments that name no
    child is invoked as its own caller, so `Path` called from that action
    never returns.
  */
  lemma RunRootAsWrittenLoops(root: Cmd, args: seq<string>, confPresent: bool, links: Links, hooks: Hooks, fuel: nat)
    requires [] !in links
    requires root.call.Some? && root.minArgs <= 0 && !root.reqConf
    requires |args| == 0 || Resolve(root, AliasCache(root.commands), args[0]).None?
    ensures var o := Decide(root, args, confPresent, links, hooks);
      && o.Invoke? && o.addr == []
      && CallerChain(DefaultCallerAsWritten(SeekLinks(links, []), []), [], fuel).None?
  {
    RootSelfCallerNeverEnds(DefaultCallerAsWritten(links, []), fuel);
  }
}

=== FILE: standard.dfy ===
/** `Standard` completion (comp/standard.go). */
module Completion {
  import opened Wrappers
  import opened Text
  import opened Commands

  /** A node's `Completer`: given its identifier, the node and the arguments, the suggestions. */
  type Completer = (CompleterId, Cmd, seq<string>) -> seq<string>

  /** The child names and params of `x` that are not hidden, in that order. */
  function Visible(x: Cmd): (r: seq<string>)
    ensures forall s :: s in r <==> (s in CmdNames(x) || s in x.params) && s !in x.hidden
  {
    Minus(CmdNames(x) + x.params, x.hidden)
  }

  /**
    `Standard`: a node's own completer has the last word; without one, no
    arguments suggest the node's name, and otherwise the visible child names
    and params that start with the first argument are suggested. Hidden
    entries are removed even when the argument names them exactly.
  */
  function Standard(x: Cmd, args: seq<string>, complete: Completer): (r: seq<string>)
    ensures x.completer.Some? ==> r == complete(x.completer.value, x, args)
    ensures x.completer.None? && |args| == 0 ==> r == [x.name]
    ensures x.completer.None? && |args| > 0 ==>
      forall s :: s in r <==> (s in CmdNames(x) || s in x.params) && s !in x.hidden && args[0] <= s
    ensures x.completer.None? && |args| > 0 ==> |r| <= |x.commands| + |x.params|
  {
    if x.completer.Some? then complete(x.completer.value, x, args)
    else if |args| == 0 then [x.name]
    else KeepPrefixed(Visible(x), args[0])
  }

  /** Only the first argument matters. */
  lemma StandardReadsFirstArgOnly(x: Cmd, a: string, rest1: seq<string>, rest2: seq<string>, complete: Completer)
    requires x.completer.None?
    ensures Standard(x, [a] + rest1, complete) == Standard(x, [a] + rest2, complete)
  {
  }

  /** After a trailing space (first argument empty) every visible name and param is offered, in order. */
  lemma StandardAfterBlank(x: Cmd, args: seq<string>, complete: Completer)
    requires x.completer.None? && |args| > 0 && args[0] == ""
    ensures Standard(x, args, complete) == Visible(x)
  {
    KeepPrefixedEmpty(Visible(x));
  }

  /** A hidden child is not offered even when the argument is its exact name. */
  lemma StandardHidesExactName(x: Cmd, name: string, complete: Completer)
    requires x.completer.None? && name in x.hidden
    ensures name !in Standard(x, [name], complete)
  {
  }
}

=== FILE: text.dfy ===
/**
  String helpers the command tree relies on: Go's whitespace test and
  `strings.Fields`, `strings.Join`, and small stand-ins for the list filters
  (`filt.HasPrefix`, `set.Minus`) whose source is not part of this model.
  Strings are sequences of characters; `p <= s` is Dafny's prefix test and
  plays the part of `strings.HasPrefix(s, p)`.
*/
module Text {

  /** Go's `unicode.IsSpace`: the Latin-1 spaces plus the Unicode White_Space set. */
  predicate IsSpace(c: char) {
    || c == ' ' || c == '\t' || c == '\n' || c == '\r'
    || c == '\U{000B}' || c == '\U{000C}' || c == '\U{0085}' || c == '\U{00A0}'
    || c == '\U{1680}' || ('\U{2000}' <= c <= '\U{200A}')
    || c == '\U{2028}' || c == '\U{2029}' || c == '\U{202F}' || c == '\U{205F}'
    || c == '\U{3000}'
  }

  predicate SpaceFree(s: string) {
    forall i :: 0 <= i < |s| ==> !IsSpace(s[i])
  }

  /** A field as `strings.Fields` produces it: non-empty and without whitespace. */
  predicate IsWord(s: string) {
    |s| > 0 && SpaceFree(s)
  }

  /** `strings.HasSuffix(s, suffix)`. */
  predicate EndsWith(s: string, suffix: string) {
    |suffix| <= |s| && s[|s| - |suffix|..] == suffix
  }

  /** Linear search, as the loops in `Param` and `IsHidden` do it. */
  function Member(xs: seq<string>, s: string): (b: bool)
    ensures b <==> s in xs
  {
    |xs| > 0 && (xs[0] == s || Member(xs[1..], s))
  }

  /** `strings.Join`. */
  function Join(parts: seq<string>, sep: string): string {
    if |parts| == 0 then ""
    else if |parts| == 1 then parts[0]
    else parts[0] + sep + Join(parts[1..], sep)
  }

  /**
    The scan behind `strings.Fields`: `word` is the field read so far; a
    whitespace character ends it, any other character extends it.
  */
  function FieldsFrom(s: string, word: string): (r: seq<string>)
    requires SpaceFree(word)
    ensures forall i :: 0 <= i < |r| ==> IsWord(r[i])
    decreases |s|
  {
    if |s| == 0 then
      (if |word| == 0 then [] else [word])
    else if IsSpace(s[0]) then
      (if |word| == 0 then [] else [word]) + FieldsFrom(s[1..], [])
    else
      FieldsFrom(s[1..], word + [s[0]])
  }

  /** `strings.Fields`: the maximal runs of non-whitespace characters. */
  function Fields(s: string): (r: seq<string>)
    ensures forall i :: 0 <= i < |r| ==> IsWord(r[i])
    ensures SplitsInto(s, r)
  {
    FieldsSplit(s);
    FieldsFrom(s, [])
  }

  /** Reading a run of non-whitespace characters only extends the pending field. */
  lemma {:induction false} FieldsFromWord(w: string, t: string, word: string)
    requires SpaceFree(word) && SpaceFree(w)
    ensures SpaceFree(word + w)
    ensures FieldsFrom(w + t, word) == FieldsFrom(t, word + w)
    decreases |w|
  {
    if |w| == 0 {
      assert w + t == t;
      assert word + w == word;
    } else {
      assert (w + t)[0] == w[0];
      assert (w + t)[1..] == w[1..] + t;
      assert word + [w[0]] + w[1..] == word + w;
      FieldsFromWord(w[1..], t, word + [w[0]]);
    }
  }

  /** Words joined by single spaces split back into the same words, whatever follows after a space. */
  lemma {:induction false} FieldsOfJoin(ws: seq<string>, t: string)
    requires |ws| > 0
    requires forall i :: 0 <= i < |ws| ==> IsWord(ws[i])
    requires |t| == 0 || IsSpace(t[0])
    ensures FieldsFrom(Join(ws, " ") + t, []) == ws + FieldsFrom(t, [])
    decreases |ws|
  {
    var w := ws[0];
    if |ws| == 1 {
      assert Join(ws, " ") + t == w + t;
      FieldsFromWord(w, t, []);
      assert [] + w == w;
      if |t| > 0 {
        assert FieldsFrom(t, w) == [w] + FieldsFrom(t[1..], []);
        assert FieldsFrom(t, []) == FieldsFrom(t[1..], []);
      }
    } else {
      var rest := Join(ws[1..], " ") + t;
      var tail := " " + rest;
      assert Join(ws, " ") + t == w + tail;
      FieldsFromWord(w, tail, []);
      assert [] + w == w;
      assert tail[1..] == rest;
      assert FieldsFrom(tail, w) == [w] + FieldsFrom(rest, []);
      FieldsOfJoin(ws[1..], t);
      assert ws == [w] + ws[1..];
    }
  }

  /** Joining fields gives a string that ends in the last field's last character, never in whitespace. */
  lemma {:induction false} JoinEndsInWord(ws: seq<string>)
    requires |ws| > 0
    requires forall i :: 0 <= i < |ws| ==> IsWord(ws[i])
    ensures var j := Join(ws, " "); |j| > 0 && !IsSpace(j[|j| - 1])
    decreases |ws|
  {
    if |ws| > 1 {
      JoinEndsInWord(ws[1..]);
      var j := Join(ws[1..], " ");
      assert Join(ws, " ") == ws[0] + " " + j;
      assert Join(ws, " ")[|Join(ws, " ")| - 1] == j[|j| - 1];
    } else {
      assert IsWord(ws[0]);
    }
  }

  /** Round trip: `strings.Fields(strings.Join(ws, " ")) == ws` for any list of fields. */
  lemma FieldsJoinRoundTrip(ws: seq<string>)
    requires forall i :: 0 <= i < |ws| ==> IsWord(ws[i])
    ensures Fields(Join(ws, " ")) == ws
  {
    if |ws| > 0 {
      FieldsOfJoin(ws, []);
      assert Join(ws, " ") + [] == Join(ws, " ");
    }
  }

  /** A trailing space after the joined fields adds no field. */
  lemma FieldsJoinBlank(ws: seq<string>)
    requires forall i :: 0 <= i < |ws| ==> IsWord(ws[i])
    ensures Fields(Join(ws, " ") + " ") == ws
  {
    assert FieldsFrom(" ", []) == [];
    if |ws| > 0 {
      FieldsOfJoin(ws, " ");
      assert ws + [] == ws;
    } else {
      assert Join(ws, " ") + " " == " ";
    }
  }

  /** Every character of `s` is whitespace. */
  predicate AllSpace(s: string) {
    forall i :: 0 <= i < |s| ==> IsSpace(s[i])
  }

  /** `seps[0] + words[0] + seps[1] + ... + words[n-1] + seps[n]`. */
  function Interleave(seps: seq<string>, words: seq<string>): string
    requires |seps| == |words| + 1
    decreases |words|
  {
    if |words| == 0 then seps[0]
    else seps[0] + words[0] + Interleave(seps[1..], words[1..])
  }

  /** Whitespace-only separators, each inner one non-empty; the outer two may be empty. */
  predicate Separators(seps: seq<string>, words: seq<string>) {
    && |seps| == |words| + 1
    && (forall i :: 0 <= i < |seps| ==> AllSpace(seps[i]))
    && (forall i :: 0 < i < |words| ==> |seps[i]| > 0)
  }

  /** `s` is `words` with runs of whitespace between them and, optionally, around them. */
  ghost predicate SplitsInto(s: string, words: seq<string>) {
    exists seps :: Separators(seps, words) && s == Interleave(seps, words)
  }

  /** Moving a character from in front of the layout into its first separator. */
  lemma {:induction false} InterleaveWiden(c: char, g: seq<string>, ws: seq<string>)
    requires |g| == |ws| + 1
    ensures Interleave([[c] + g[0]] + g[1..], ws) == [c] + Interleave(g, ws)
  {
    var h := [[c] + g[0]] + g[1..];
    assert h[1..] == g[1..];
    if |ws| > 0 {
      assert Interleave(h, ws) == [c] + g[0] + ws[0] + Interleave(g[1..], ws[1..]);
    }
  }

  /** A whitespace character moved into the first separator keeps the layout well formed. */
  lemma {:induction false} WidenSeparators(c: char, g: seq<string>, ws: seq<string>)
    requires IsSpace(c) && Separators(g, ws)
    ensures Separators([[c] + g[0]] + g[1..], ws)
    ensures Interleave([[c] + g[0]] + g[1..], ws) == [c] + Interleave(g, ws)
  {
    InterleaveWiden(c, g, ws);
    var h := [[c] + g[0]] + g[1..];
    assert AllSpace(h[0]) by {
      assert forall i :: 0 < i < |h[0]| ==> h[0][i] == g[0][i - 1];
    }
    assert forall i :: 0 < i < |h| ==> h[i] == g[i];
  }

  /** A pending field in front of a layout whose first separator is non-empty. */
  lemma {:induction false} PendSeparators(word: string, h: seq<string>, ws: seq<string>)
    requires Separators(h, ws) && |h[0]| > 0
    ensures Separators([""] + h, [word] + ws)
    ensures Interleave([""] + h, [word] + ws) == word + Interleave(h, ws)
  {
    var g := [""] + h;
    var r := [word] + ws;
    assert g[1..] == h && r[1..] == ws;
    assert forall i :: 0 < i < |g| ==> g[i] == h[i - 1];
  }

  /**
    The separators after reading the whitespace character `c`, given the
    separators `g` of what follows it: `c` opens the first of them, and a
    pending field goes in front with an empty separator.
  */
  function SpaceGaps(c: char, word: string, g: seq<string>): seq<string>
    requires |g| > 0
  {
    var lead := [[c] + g[0]] + g[1..];
    if |word| == 0 then lead else [""] + lead
  }

  /** One whitespace step of `FieldsFrom`, laid out by `SpaceGaps`. */
  lemma {:induction false} GapsSpaceStep(s: string, word: string, g: seq<string>)
    requires |s| > 0 && IsSpace(s[0]) && SpaceFree(word)
    requires Separators(g, FieldsFrom(s[1..], [])) && s[1..] == Interleave(g, FieldsFrom(s[1..], []))
    ensures Separators(SpaceGaps(s[0], word, g), FieldsFrom(s, word))
    ensures word + s == Interleave(SpaceGaps(s[0], word, g), FieldsFrom(s, word))
  {
    var f := FieldsFrom(s[1..], []);
    WidenSeparators(s[0], g, f);
    var lead := [[s[0]] + g[0]] + g[1..];
    assert s == [s[0]] + s[1..];
    if |word| == 0 {
      assert FieldsFrom(s, word) == f;
    } else {
      PendSeparators(word, lead, f);
      assert FieldsFrom(s, word) == [word] + f;
    }
  }

  /**
    The whitespace `FieldsFrom(s, word)` skips, as separators: laid between
    its fields they give back the pending field followed by `s`.
  */
  ghost function Gaps(s: string, word: string): (g: seq<string>)
    requires SpaceFree(word)
    ensures Separators(g, FieldsFrom(s, word))
    ensures word + s == Interleave(g, FieldsFrom(s, word))
    decreases |s|
  {
    if |s| == 0 then
      assert word + s == word;
      if |word| == 0 then [""] else ["", ""]
    else if IsSpace(s[0]) then
      var g := Gaps(s[1..], []);
      GapsSpaceStep(s, word, g);
      SpaceGaps(s[0], word, g)
    else
      assert word + s == word + [s[0]] + s[1..];
      Gaps(s[1..], word + [s[0]])
  }

  /** Leading whitespace adds no field. */
  lemma {:induction false} FieldsFromSpaces(sp: string, t: string)
    requires AllSpace(sp)
    ensures FieldsFrom(sp + t, []) == FieldsFrom(t, [])
    decreases |sp|
  {
    if |sp| > 0 {
      assert (sp + t)[1..] == sp[1..] + t;
      FieldsFromSpaces(sp[1..], t);
    } else {
      assert sp + t == t;
    }
  }

  /** `strings.Fields` over any string: its fields are the string's words, and whitespace is all that lies around them. */
  lemma FieldsSplit(s: string)
    ensures SplitsInto(s, FieldsFrom(s, []))
  {
    var g := Gaps(s, []);
    assert [] + s == s;
  }

  /** Past the first word of a layout with more words, the next separator starts with whitespace; the rest is again a layout. */
  lemma {:induction false} NarrowSeparators(seps: seq<string>, words: seq<string>)
    requires Separators(seps, words) && |words| > 1
    ensures var g := [seps[1][1..]] + seps[2..];
      && IsSpace(seps[1][0])
      && Separators(g, words[1..])
      && Interleave(seps[1..], words[1..]) == [seps[1][0]] + Interleave(g, words[1..])
  {
    var sep := seps[1];
    assert |sep| > 0 && AllSpace(sep);
    var g := [sep[1..]] + seps[2..];
    assert [sep[0]] + g[0] == sep && g[1..] == seps[2..];
    assert seps[1..] == [sep] + seps[2..];
    InterleaveWiden(sep[0], g, words[1..]);
    assert AllSpace(g[0]) by {
      assert forall i :: 0 <= i < |g[0]| ==> g[0][i] == sep[i + 1];
    }
    assert forall i :: 0 < i < |g| ==> g[i] == seps[i + 1];
  }

  /** Conversely, a string laid out as words and whitespace separators has exactly those words as its fields. */
  lemma {:induction false} FieldsOfSplit(seps: seq<string>, words: seq<string>)
    requires Separators(seps, words)
    requires forall i :: 0 <= i < |words| ==> IsWord(words[i])
    ensures Fields(Interleave(seps, words)) == words
    decreases |words|
  {
    if |words| == 0 {
      FieldsFromSpaces(seps[0], "");
      assert seps[0] + "" == seps[0];
    } else {
      var w := words[0];
      var rest := Interleave(seps[1..], words[1..]);
      assert Interleave(seps, words) == seps[0] + (w + rest);
      FieldsFromSpaces(seps[0], w + rest);
      FieldsFromWord(w, rest, []);
      assert [] + w == w;
      if |words| == 1 {
        assert rest == seps[1];
        if |rest| > 0 {
          FieldsFromSpaces(rest[1..], "");
          assert rest[1..] + "" == rest[1..];
        }
      } else {
        NarrowSeparators(seps, words);
        var g := [seps[1][1..]] + seps[2..];
        assert rest[1..] == Interleave(g, words[1..]);
        assert FieldsFrom(rest, w) == [w] + FieldsFrom(rest[1..], []);
        FieldsOfSplit(g, words[1..]);
        assert words == [w] + words[1..];
      }
    }
  }

  /** Stand-in for `filt.HasPrefix`: keeps, in order, the entries that start with `prefix`. */
  function KeepPrefixed(list: seq<string>, prefix: string): (r: seq<string>)
    ensures |r| <= |list|
    ensures forall s :: s in r <==> s in list && prefix <= s
  {
    if |list| == 0 then []
    else if prefix <= list[0] then [list[0]] + KeepPrefixed(list[1..], prefix)
    else KeepPrefixed(list[1..], prefix)
  }

  /** Every string starts with the empty prefix, so filtering by it keeps the whole list. */
  lemma {:induction false} KeepPrefixedEmpty(list: seq<string>)
    ensures KeepPrefixed(list, "") == list
  {
    if |list| > 0 {
      KeepPrefixedEmpty(list[1..]);
      assert list == [list[0]] + list[1..];
    }
  }

  /** Stand-in for `set.Minus`: keeps, in order, the entries not listed in `drop`. */
  function Minus(list: seq<string>, drop: seq<string>): (r: seq<string>)
    ensures |r| <= |list|
    ensures forall s :: s in r <==> s in list && s !in drop
  {
    if |list| == 0 then []
    else if list[0] in drop then Minus(list[1..], drop)
    else [list[0]] + Minus(list[1..], drop)
  }

  /** Go's `%q` for strings that need no escaping. */
  function Quote(s: string): string {
    "\"" + s + "\""
  }
}

=== FILE: usage.dfy ===
/**
  Usage text and the error messages built from it: `InferredUsage`
  (z/bonzai.go) and `UsageError`, `Unimplemented`, `ReqConfError`
  (z/cmd.go). `UsageGroup`, which renders a list of alternatives with a
  repetition count, is not part of this model and is passed in as `group`.
*/
module Usage {
  import opened Wrappers
  import opened Text
  import opened Commands

  /** `UsageGroup(args, min, max)`. */
  type Grouper = (seq<string>, int, int) -> string

  /** Text that announces a misconfigured command. */
  predicate IsErrorText(s: string) {
    "{ERROR:" <= s
  }

  /** The node cannot be used as it stands: params without `Call`, or neither `Call` nor children. */
  predicate Malformed(x: Cmd) {
    x.call.None? && (|x.commands| == 0 || |x.params| > 0)
  }

  /** `UsageNames`: the aliases in order and then the name, as one group of which exactly one is chosen. */
  function UsageNames(c: Cmd, group: Grouper): (r: string)
    ensures r == group(c.aliases + [c.name], 1, 1)
  {
    group(Names(c), 1, 1)
  }

  /** The `UsageNames` of each child, in order. */
  function ChildGroups(cmds: seq<Cmd>, group: Grouper): (r: seq<string>)
    ensures |r| == |cmds|
    ensures forall i :: 0 <= i < |cmds| ==> r[i] == UsageNames(cmds[i], group)
  {
    seq(|cmds|, i requires 0 <= i < |cmds| => UsageNames(cmds[i], group))
  }

  /** The params group of `InferredUsage`. */
  function ParamsGroup(x: Cmd, group: Grouper): string {
    group(x.params, x.minParm, x.maxParm)
  }

  /** The command-names group of `InferredUsage`: empty when there are no children. */
  function NamesGroup(x: Cmd, group: Grouper): string {
    if |x.commands| > 0 then group(ChildGroups(x.commands, group), 1, 1) else ""
  }

  const ErrorOpen := "{ERROR:"

  /** The text for a node with neither `Call` nor children. */
  function NoCallNoCommands(): (r: string)
    ensures IsErrorText(r)
  {
    var r := ErrorOpen + " neither Call nor Commands defined}";
    assert r[..|ErrorOpen|] == ErrorOpen;
    r
  }

  /** The text for a node with params but no `Call`: the params joined by ", ". */
  function ParamsWithoutCall(params: seq<string>): (r: string)
    ensures IsErrorText(r)
  {
    var r := ErrorOpen + " Params without Call: " + Join(params, ", ") + "}";
    assert r[..|ErrorOpen|] == ErrorOpen;
    r
  }

  /**
    `InferredUsage`: an error text for a malformed node, otherwise the params
    group and the command-names group, joined as alternatives when both are
    present.
  */
  function InferredUsage(x: Cmd, group: Grouper): (r: string)
    ensures x.call.None? && |x.commands| == 0 ==> r == NoCallNoCommands()
    ensures x.call.None? && |x.commands| > 0 && |x.params| > 0 ==> r == ParamsWithoutCall(x.params)
    ensures !Malformed(x) && |x.commands| == 0 ==> r == ParamsGroup(x, group)
    ensures !Malformed(x) && ParamsGroup(x, group) != "" && NamesGroup(x, group) != "" ==>
      r == "(" + ParamsGroup(x, group) + "|" + NamesGroup(x, group) + ")"
    ensures !Malformed(x) && (ParamsGroup(x, group) == "" || NamesGroup(x, group) == "") ==>
      r == ParamsGroup(x, group) + NamesGroup(x, group)
  {
    if x.call.None? && |x.commands| == 0 then
      NoCallNoCommands()
    else if x.call.None? && |x.params| > 0 then
      ParamsWithoutCall(x.params)
    else
      var params := ParamsGroup(x, group);
      var names := NamesGroup(x, group);
      if params != "" && names != "" then "(" + params + "|" + names + ")"
      else if params != "" then params
      else names
  }

  /**
    As long as `UsageGroup` itself never produces error text, `InferredUsage`
    reports an error exactly for malformed nodes; in particular a node with
    children and no params never gets one.
  */
  lemma InferredUsageErrorIff(x: Cmd, group: Grouper)
    requires forall a, lo, hi :: !IsErrorText(group(a, lo, hi))
    ensures IsErrorText(InferredUsage(x, group)) <==> Malformed(x)
  {
    if !Malformed(x) {
      var params := ParamsGroup(x, group);
      var names := NamesGroup(x, group);
      assert !IsErrorText(params);
      assert |x.commands| > 0 ==> !IsErrorText(names);
      if params != "" && names != "" {
        assert InferredUsage(x, group)[0] == '(';
      } else {
        assert InferredUsage(x, group) == params || InferredUsage(x, group) == names;
      }
    }
  }

  /**
    `UsageError`: "usage: ", the name, and the text of the node's own usage
    function, or else of the package-wide `Z.UsageFunc`. `fallback` is the
    function assigned to `Z.UsageFunc`; `None` means it still holds its
    default, `InferredUsage`.
  */
  function UsageError(x: Cmd, custom: (UsageFuncId, Cmd) -> string, fallback: Option<UsageFuncId>, group: Grouper): (msg: string)
    ensures "usage: " + x.name + " " <= msg
    ensures x.usageFunc.Some? ==> msg[|x.name| + 8..] == custom(x.usageFunc.value, x)
    ensures x.usageFunc.None? && fallback.Some? ==> msg[|x.name| + 8..] == custom(fallback.value, x)
    ensures x.usageFunc.None? && fallback.None? ==> msg[|x.name| + 8..] == InferredUsage(x, group)
  {
    var usage :=
      if x.usageFunc.Some? then custom(x.usageFunc.value, x)
      else if fallback.Some? then custom(fallback.value, x)
      else InferredUsage(x, group);
    "usage: " + x.name + " " + usage
  }

  /** `Unimplemented`: the quoted name, then the complaint. */
  function UnimplementedMsg(x: Cmd): (r: string)
    ensures |r| == |x.name| + 31
    ensures r[0] == '"' && r[1..|x.name| + 1] == x.name
    ensures r[|x.name| + 1..] == "\" has not yet been implemented"
  {
    var tail := "\" has not yet been implemented";
    var r := "\"" + x.name + tail;
    assert r[|x.name| + 1..] == tail;
    assert r == Quote(x.name) + " has not yet been implemented";
    r
  }

  /** What `ReqConfError` says after the quoted name. */
  const ReqConfTail := " requires a configurer (Z.Conf must be assigned)"

  /** `ReqConfError`: names the command, quoted, and says that `Z.Conf` must be assigned. */
  function ReqConfMsg(x: Cmd): (r: string)
    ensures |r| == |x.name| + 6 + |ReqConfTail|
    ensures "cmd \"" <= r && r[5..|x.name| + 5] == x.name && r[|x.name| + 5] == '"'
    ensures r[|x.name| + 6..] == ReqConfTail
  {
    "cmd " + Quote(x.name) + ReqConfTail
  }
}

=== FILE: wrappers.dfy ===
/** Optional values, standing in for Go's nil pointers and "comma ok" lookups. */
module Wrappers {

  datatype Option<+T> = None | Some(value: T)
}
